=== FILE: README.md ===
# Frame presenter of `src/opengl.c`, modelled in Dafny

`src/opengl.c` is the renderer back end of an emulator front end. The caller
draws each frame into a CPU screen buffer of BGRA8888 pixels obtained from
`BeginDraw`. `EndDraw` converts that buffer, uploads it as a texture and
draws it as a quad, letterboxed to the source's aspect ratio. The file holds
two build-time variants:

- **PSP GU** (lines 1–309): packs to blue-high RGB565 into one of two
  texture slots, padded to power-of-two dimensions. The slots live in video
  memory, obtained from a bump allocator, with a system-memory fallback.
- **OpenGL ES** (lines 311–608): detects extensions, then picks one of three
  upload paths: red-high RGB565, direct BGRA, or a BGRA→RGBA reorder. It
  keeps one texture whose size it re-specifies on change, and caches the
  texture-coordinate extents.

The model keeps the pure integer, byte and index logic of both variants. GPU,
display and SDL calls become values the operations return: the viewport, the
uploaded pixels, the filter call, the reallocation, and the slot drawn from.

Modules:

- `Wrappers`: `Option`, for NULL.
- `Bits`: `next_pot` and `ALIGN_UP`.
- `DrawBuffers`: grow-only screen and upload buffers (`BeginDraw`, `ensure_upload_buffer`).
- `Pixels`: the two 565 pack kernels, and the BGRA→RGBA reorder both as written and corrected.
- `Extensions`: `has_extension` and `detect_extensions`.
- `Geometry`: the aspect-ratio viewport and the texture-coordinate extents, as exact rationals.
- `Filters`: filter-state caching.
- `Vram`: `vram_alloc_bytes` and `ensure_texbuf`.
- `PspRenderer` and `GlesRenderer`: the renderer states threaded through `Init`, `BeginDraw`, `EndDraw` and `Destroy`.

Behaviour of the code worth noting, all of it modelled as the code does it:

- The OpenGL ES texture is re-specified whenever the wanted size differs from the allocated one. That includes a smaller size, not only growth.
- The texture coordinates are recomputed after every re-specification, as well as when the frame size changes.
- The BGRA→RGBA reorder does not leave green and alpha unchanged: both bytes come out as green OR alpha, and the texture receives exactly that. See Findings.
- `Destroy` on the PSP does not give video memory back to the allocator.

## Model

| member | source | states |
|---|---|---|
| Bits.NextPot | src/opengl.c:21-25 | for x ≤ 2^30 the result is a power of two with x ≤ p ≤ 2^30, and p < 2x unless p = 1 |
| Bits.NextPotIsLeast | src/opengl.c:335-339 | no power of two q ≥ x is smaller than `next_pot(x)` |
| Bits.NextPotOfSmall | src/opengl.c:336-337 | inputs of at most 1 give 1, because the loop never runs |
| Bits.NextPotOfPow2 | src/opengl.c:335-338 | a power of two is its own `next_pot` |
| Bits.AlignUp | src/opengl.c:18 | for the alignments 16 and 4096, the result is a multiple of the alignment in [x, x + a) |
| Bits.AlignUpUnique | src/opengl.c:332 | it is the only multiple of the alignment in [x, x + a) |
| Bits.AlignUpIdempotent | src/opengl.c:332 | aligning an aligned value leaves it unchanged |
| Bits.AlignUpMask16 | src/opengl.c:18 | the 32-bit mask expression `(x+15) & ~15` gives a multiple of 16 in [x, x + 16) while x + 15 does not wrap |
| Bits.AlignUpMask4096 | src/opengl.c:332 | the same for `(x+4095) & ~4095` |
| DrawBuffers.Grow | src/opengl.c:170-175 | the grow-only rule: the capacity stays when the request fits, otherwise it becomes an aligned value covering the request, less than request + alignment |
| DrawBuffers.BeginDraw | src/opengl.c:169-180 | after `BeginDraw(w,h)` the buffer holds w·h·4 bytes and the pitch is w·4. The capacity never shrinks and stays the same when the frame fits. On growth it is a multiple of 4096 below need + 4096 |
| DrawBuffers.EnsureUploadBuffer | src/opengl.c:472-477 | the upload buffer follows the same grow-only rule with 4096-byte pages |
| DrawBuffers.BeginAllGrowOnly | src/opengl.c:459-470 | over any series of frames the capacity never shrinks and covers every frame. It is never reallocated if the first capacity fitted them all |
| Pixels.PackRgb565 | src/opengl.c:490-500 | OpenGL ES texel: bits 15..11 are r>>3, bits 10..5 are g>>2, bits 4..0 are b>>3 |
| Pixels.PackBgr565 | src/opengl.c:56-67 | PSP texel: blue in bits 15..11, green in 10..5, red in 4..0 |
| Pixels.PackOrdersMirror | src/opengl.c:61-65 | the PSP packing is the OpenGL ES packing with red and blue exchanged |
| Pixels.FieldsIff | src/opengl.c:495-498 | two 16-bit texels are equal iff their three fields are, so unpacking recovers the truncated channels exactly |
| Pixels.PackPixels | src/opengl.c:491-499 | the packed image has one texel per pixel, each holding the truncated channels of its pixel |
| Pixels.PackPixelsIgnoresAlpha | src/opengl.c:492-494 | the packed image does not depend on the alpha bytes |
| Pixels.PackRow | src/opengl.c:56-67 | the row kernel writes exactly dst[dOff..dOff+w] with the packed source row. Every other texel keeps its value |
| Pixels.PackPixelsOfSlice | src/opengl.c:219-225 | packing the row slice that starts at pixel `start` gives the pixels of the whole buffer from `start` on |
| Pixels.LoadStoreLE | src/opengl.c:481-482 | a little-endian word read from four bytes gives those bytes back |
| Pixels.SwizzleWord | src/opengl.c:485 | the line-485 word expression, byte by byte: byte 0 gets byte 2, byte 2 gets byte 0, and bytes 1 and 3 both get byte 1 OR byte 3 |
| Pixels.SwizzleWordBytes | src/opengl.c:485 | the reorder expression as written puts red in byte 0 and blue in byte 2, and puts green OR alpha into bytes 1 and 3 |
| Pixels.SwizzleWordKeepsGreenAlphaIff | src/opengl.c:485 | as written, bytes 1 and 3 keep green and alpha iff green equals alpha |
| Pixels.SwizzleWordCounterexample | src/opengl.c:479-487 | for the pixel B=0x10 G=0x20 R=0x30 A=0xFF the expression yields 0xFF10FF30, not the RGBA word |
| Pixels.ReorderWord | src/opengl.c:479-480 | the corrected kernel swaps bytes 0 and 2 and keeps bytes 1 and 3 |
| Pixels.SwizzleWordAgreesIff | src/opengl.c:483-486 | the as-written and corrected words agree iff green equals alpha |
| Pixels.SwizzlePixels | src/opengl.c:480-487 | the as-written reorder of a buffer, stated per pixel channel |
| Pixels.SwizzlePixelsIsWordKernel | src/opengl.c:483-486 | that per-channel statement is the 32-bit word expression applied to each pixel |
| Pixels.ReorderPixels | src/opengl.c:479-487 | corrected reorder: each output pixel is R, G, B, A of its input pixel |
| Pixels.ReorderPixelsIsWordKernel | src/opengl.c:484-485 | the corrected buffer reorder is the corrected word kernel on each pixel |
| Pixels.ReorderPixelsInvolution | src/opengl.c:480-487 | reordering twice restores the buffer |
| Pixels.SwizzlePixelsAgreesIff | src/opengl.c:480-487 | the as-written buffer equals the corrected one iff every pixel has green equal to alpha |
| Extensions.FindFrom | src/opengl.c:372 | `strstr` from offset p: the first occurrence at or after p, or none |
| Extensions.Scan | src/opengl.c:370-378 | the `strstr` skip-ahead loop resumed at p; whenever it accepts, a whole-token occurrence starts at or after p, whatever the needle |
| Extensions.ScanFindsTokens | src/opengl.c:370-378 | for a non-empty, space-free needle, the scan loop resumed at p accepts iff a whole-token occurrence starts at or after p |
| Extensions.HasExtension | src/opengl.c:368-379 | true only for two non-NULL strings where the needle occurs as a whole token |
| Extensions.SkippedHoldsNoToken | src/opengl.c:372-376 | after a rejected first occurrence at i, skipping past the occurrence passes over no whole token of a space-free needle |
| Extensions.HasExtensionIffToken | src/opengl.c:368-379 | `has_extension` is true iff the needle occurs delimited by start or space and by end or space |
| Extensions.HasExtensionNull | src/opengl.c:369 | a NULL list or needle gives false |
| Extensions.ScanMissesSpacedNeedle | src/opengl.c:372-376 | with a space inside the needle, the skip-ahead misses the token in "xa a a" |
| Extensions.DetectExtensions | src/opengl.c:381-387 | BGRA support iff its token is listed. npot support iff any of the three npot tokens is. NULL gives neither |
| Extensions.DetectBothExtensions | src/opengl.c:383-386 | a list with the BGRA8888 and OES npot tokens gives both capabilities |
| Extensions.DetectRejectsLongerToken | src/opengl.c:373-374 | "…BGRA88880" does not match "…BGRA8888" |
| Geometry.Centre | src/opengl.c:199-200 | `(d - v) >> 1` centres the span: twice the offset is d − v or one less |
| Geometry.Fitted | src/opengl.c:194-197 | the letterboxed side is the floor of the quotient and within the drawable |
| Geometry.Viewport | src/opengl.c:192-200 | the viewport fits the drawable, one side is full and the other is the floor of the aspect-scaled side. It is centred, and is the whole drawable at (0,0) when aspect lock is off |
| Geometry.ViewportIsLargestFit | src/opengl.c:506-514 | the letterboxed side is the largest span keeping the source's aspect |
| Geometry.ViewportExample | src/opengl.c:189-200 | 320×240 on 480×272 gives 362×272 at (59,0), and the full screen when unlocked |
| Geometry.TexExtent | src/opengl.c:574-575 | the extent w/tex lies in [0,1], is 0 iff w = 0 and is 1 iff w = tex |
| Filters.SetFilter | src/opengl.c:255-259 | the filter call is issued iff the wanted filter differs from the cached one, and the cache becomes the wanted filter |
| Filters.FilterCacheSound | src/opengl.c:549-554 | starting unknown or in agreement, after any frames the GPU holds the last wanted filter and the cache agrees |
| Vram.VramAlloc | src/opengl.c:72-81 | NULL with the offset unchanged iff offset + ALIGN_UP(size,16) > 2 MiB. Otherwise base + offset is returned and the offset advances. Validity (start ≤ offset ≤ 2 MiB, 16-aligned) is preserved |
| Vram.AllocationsInRange | src/opengl.c:73-80 | over any series of requests every block is 16-aligned and lies between the starting and final offsets |
| Vram.AllocationsDisjoint | src/opengl.c:76-79 | successive blocks do not overlap |
| Vram.EnsureTexbuf | src/opengl.c:83-103 | grow-only with alignment 16, and the size covers tw·th·2. On growth each slot comes from video memory first: slot 0 at base + offset iff offset + size ≤ 2 MiB, slot 1 right after it iff offset + 2·size ≤ 2 MiB, and system memory otherwise. Storage consistency is preserved |
| Vram.DestroyTexbuf | src/opengl.c:158-165 | Destroy forgets the slots but keeps the allocator offset and the recorded texture size |
| Vram.DestroyDoesNotReuse | src/opengl.c:161 | after Destroy a new video-memory slot lies past both old video-memory slots |
| PspRenderer.Other | src/opengl.c:217 | for an index 0 or 1, `idx ^ 1` is the other index |
| PspRenderer.OtherInvolutive | src/opengl.c:295 | flipping twice returns the displayed slot |
| PspRenderer.Init | src/opengl.c:151-153 | Init forgets the cached filter and nothing else |
| PspRenderer.Destroy | src/opengl.c:158-167 | Destroy frees the buffers, forgets the slots and resets the index, but keeps the allocator, the cached filter, the frame size and the texture size |
| PspRenderer.BeginFrame | src/opengl.c:169-180 | PSP BeginDraw changes only the screen buffer |
| PspRenderer.EndDrawState | src/opengl.c:187-259 | the viewport is on 480×272 and the texture dims are power-of-two `next_pot`s. The storage covers the texture, the write slot is `idx ^ 1` and becomes current, and the wanted filter is set, only when it changed |
| PspRenderer.PadRow | src/opengl.c:220-224 | one row: packed frame pixels in x < w, zeros up to the texture width, whatever the slot held |
| PspRenderer.PadFill | src/opengl.c:216-231 | texel (x,y) is the packed pixel y·w+x inside the frame and 0 in the padding columns and rows |
| PspRenderer.PaddedTexelMeaning | src/opengl.c:220-230 | a texel inside the frame holds its pixel's channels blue-high, and a padding texel is 0 |
| PspRenderer.EndDraw | src/opengl.c:187-297 | the state change above, together with the fully written padded slot |
| PspRenderer.PlayFrames | src/opengl.c:217 | over a series of frames each writes the slot its predecessor did not, and the last one stays on display |
| PspRenderer.Alternation | src/opengl.c:295 | a series in which each slot flips the previous one alternates by parity |
| PspRenderer.SlotsAlternate | src/opengl.c:217-295 | frame i writes the non-displayed slot when i is even and the displayed one when i is odd |
| PspRenderer.EndDrawExample | src/opengl.c:189-207 | a 320×240 frame gives viewport 362×272 at (59,0) and a 512×256 texture |
| GlesRenderer.Init | src/opengl.c:396-413 | Init sets the detected capabilities, RGB565 iff OpenGL ES, texture size 0 and the initial filter. It keeps the texture-coordinate cache consistent |
| GlesRenderer.Destroy | src/opengl.c:446-457 | Destroy frees both CPU buffers and changes nothing else: capabilities, texture size, cached frame size, extents and filter are kept |
| GlesRenderer.BeginFrame | src/opengl.c:459-470 | OpenGL ES BeginDraw changes only the screen buffer |
| GlesRenderer.DesiredSize | src/opengl.c:557-558 | with npot the texture is exactly w×h. Otherwise each side is the least power of two covering it |
| GlesRenderer.ChooseUpload | src/opengl.c:531-547 | RGB565 packs red-high with a 2-byte-per-pixel upload buffer. Otherwise the frame's w·h·4 bytes are sent as is if the BGRA extension is present. Otherwise they go through `swizzle_bgra_to_rgba` as written into a 4-byte-per-pixel buffer: red, green OR alpha, blue, green OR alpha |
| GlesRenderer.ReorderPathAgreesIff | src/opengl.c:541-546 | the reorder path uploads the intended RGBA image iff every pixel's green equals its alpha |
| GlesRenderer.EndDraw | src/opengl.c:502-591 | the texture is re-specified iff the wanted size differs, growing or shrinking. The coordinates are recomputed iff it was re-specified or the frame size changed. The wanted filter is set, only when it changed. Afterwards the extents are w/texW and h/texH. The pixels uploaded are those `ChooseUpload` stages, the as-written reorder included |
| GlesRenderer.CacheValid | src/opengl.c:573-581 | once a frame size and a texture are known, the cached extents are w/texW and h/texH of them, which `Init`, `Destroy` and `EndDraw` all keep |
| GlesRenderer.EndDrawRepeat | src/opengl.c:549-581 | a repeated identical frame causes no reallocation, no filter call, no coordinate update and no state change |
| GlesRenderer.ShrinkReallocates | src/opengl.c:557-569 | without npot, a 256×224 frame after a 512×512 texture re-specifies it at 256×256 |
| GlesRenderer.NpotExtentsAreOne | src/opengl.c:557-575 | with npot support both extents are 1 |
| GlesRenderer.ZeroWidthWithoutNpot | src/opengl.c:557-575 | without npot a zero-width frame gets a texture 1 texel wide (`next_pot(0)` = 1) and extent 0 |

## Left out

- GPU, display and SDL calls are left out because they are effects outside the logic: `sceGu*`, `gl*`, display lists and `g_list_idx`, cache flushes, the vertex quad, the swap and the vertical-blank wait. `EndDraw` returns what it would hand to them.
- `glGetString(GL_EXTENSIONS)`, the drawable size and the two `g_config` switches become parameters.
- Floating point (`GuVertex`, `sceGuTexScale`, the `GLfloat` texture coordinates): extents are exact rationals.
- The tiled `swizzle_16bit` path and the 16×8 tile rounding are left out, because `PSP_USE_SWIZZLE` is 0.
- The sync throttle and `g_frame_counter` are left out, because `PSP_SYNC_EVERY_N` is 0.
- Allocation failure of `malloc`, `memalign` and `realloc` is not handled by the code and is not modelled. A system-memory slot is only marked as such.
- Memory leaks (old slots and buffers are never freed) and concurrency with the GPU are left out.
- The PSP copy of `ensure_upload_buffer` (src/opengl.c:121-126) is the same rule as the OpenGL ES one, and nothing in the PSP variant calls it. `PspState.uploadCap` is therefore only reset, by `Destroy`.
- The OpenGL ES handles `g_tex` and `g_texture` are left out, and so are the PSP's unused `g_tex_max_w`/`g_tex_max_h` and `g_last_w`/`g_last_h`.
- The PSP slot contents are not stored in the renderer state. `PspRenderer.EndDraw` takes the slot's previous texels as a parameter and returns the texels written.
- Pixels.Word: 32-bit loads and stores are little-endian, as on the PSP and on the OpenGL ES hosts the C comments name (src/opengl.c:53, src/opengl.c:489). The reorder finding depends on this: on a big-endian host the unmasked shifts would move different bytes.
- Bits.NextPot: defined only up to 2^30, because doubling past that overflows the C `int`.
- Bits.AlignUp: stated for the two alignments the file uses, 16 and 4096, not for every power of two.
- DrawBuffers.BeginDraw: `size_t` overflow of w·h·4 is not modelled.
- Vram.EnsureTexbuf: the 32-bit `size_t` overflow of `tw * th * 2` (src/opengl.c:84) for textures of 2^31 texels or more is not modelled. There the C code would not grow the slots, while the model's size covers the whole texture.
- GlesRenderer.ChooseUpload: the `size_t` overflow of the upload sizes `px * 2` and `px * 4` (src/opengl.c:532, src/opengl.c:542) on a 32-bit host is not modelled.
- Vram.VramAlloc: the 32-bit wrap-around of `g_vram_alloc_off + size` for requests near 4 GiB is not modelled.
- Extensions.HasExtension: an empty needle makes the C loop never terminate unless the list is empty or starts with a space. The model requires exactly the terminating inputs. The whole-token equivalence is proved only for non-empty, space-free needles, which is what the file passes.
- Geometry.Viewport: requires the divisor of the branch taken to be non-zero. With aspect lock on, the C code divides by zero only when the frame height is 0 and either the frame width or the drawable height is 0 too.
- Geometry.Viewport: the `int` products `viewport_width * g_draw_height` and `viewport_height * g_draw_width` are unbounded here. Their 32-bit overflow for very large frame or drawable sizes is not modelled.
- GlesRenderer.EndDraw: with npot support it requires a non-empty frame, because a zero side then gives a 0/0 extent (NaN). Without npot a zero side is modelled: the texture side is `next_pot(0)` = 1 and the extent is 0.

## Findings

| source | as written | input that shows it | evidently intended | confidence | as-written member | corrected member |
|---|---|---|---|---|---|---|
| src/opengl.c:485 | `d32[i] = (v >> 16) \| (v & 0xFF00FF00) \| (v << 16)`: the shifted terms are not masked, so byte 3 of `v` lands in byte 1 and byte 1 lands in byte 3 | pixel B=0x10 G=0x20 R=0x30 A=0xFF, word 0xFF302010, becomes 0xFF10FF30: green reads 0xFF | bytes 0 and 2 exchanged, bytes 1 and 3 unchanged, giving 0xFF102030 (`((v >> 16) & 0xFF) \| (v & 0xFF00FF00) \| ((v << 16) & 0xFF0000)`) | high; not executed | Pixels.SwizzleWordCounterexample | Pixels.ReorderWord |

The renderer model uploads what the code computes. `Pixels.ReorderPixels`, built from the corrected `Pixels.ReorderWord`, is the intended image; `GlesRenderer.ReorderPathAgreesIff` compares the upload with it.

=== FILE: bits.dfy ===
/**
  Integer helpers shared by both renderer variants: `next_pot` and `ALIGN_UP`.

  Sizes are unbounded naturals here; the C `int`/`size_t` widths are kept in
  view through explicit upper bounds (`next_pot` is only defined while its
  doubling cannot overflow a signed 32-bit `int`).
 */
module Bits {

  /** 2^k. */
  function Pow2(k: nat): (p: nat)
    ensures p >= 1
  {
    if k == 0 then 1 else 2 * Pow2(k - 1)
  }

  /** n is a power of two: 1, 2, 4, 8, ... */
  predicate IsPow2(n: nat)
    decreases n
  {
    n == 1 || (n >= 2 && n % 2 == 0 && IsPow2(n / 2))
  }

  /** The largest power of two a signed 32-bit `int` holds, 2^30. */
  const IntMaxPot: nat := 0x4000_0000

  lemma {:induction false} Pow2IsPow2(k: nat)
    ensures IsPow2(Pow2(k))
  {
    if k > 0 {
      Pow2IsPow2(k - 1);
    }
  }

  lemma IntMaxPotIsPow2()
    ensures IsPow2(IntMaxPot)
  {
    Pow2IsPow2(30);
    assert Pow2(10) == 1024;
    assert Pow2(20) == 1024 * 1024;
  }

  /** Two distinct powers of two are at least a factor of two apart. */
  lemma {:induction false} Pow2Gap(p: nat, m: nat)
    requires IsPow2(p) && IsPow2(m) && p < m
    ensures 2 * p <= m
  {
    if p >= 2 {
      Pow2Gap(p / 2, m / 2);
    }
  }

  /**
    The loop `p = 1; while (p < x) p <<= 1;` continued from a given `p`.
    Each doubling stays within `IntMaxPot` as long as `x` does.
   */
  function Doubling(p: nat, x: nat): (r: nat)
    requires IsPow2(p) && p <= IntMaxPot && x <= IntMaxPot
    ensures IsPow2(r) && x <= r && p <= r <= IntMaxPot
    ensures r == p || r < 2 * x
    decreases x - p
  {
    if p < x then
      IntMaxPotIsPow2();
      Pow2Gap(p, IntMaxPot);
      Doubling(2 * p, x)
    else
      p
  }

  /** `next_pot(x)`: the power of two the doubling loop stops at. */
  function NextPot(x: nat): (p: nat)
    requires x <= IntMaxPot
    ensures IsPow2(p) && x <= p <= IntMaxPot
    ensures p == 1 || p < 2 * x
  {
    Doubling(1, x)
  }

  /** `next_pot(x)` is the least power of two not below `x`. */
  lemma NextPotIsLeast(x: nat, q: nat)
    requires x <= IntMaxPot
    requires IsPow2(q) && x <= q
    ensures NextPot(x) <= q
  {
    var p := NextPot(x);
    if q < p {
      Pow2Gap(q, p);
    }
  }

  /** For inputs of at most 1 the loop never runs. */
  lemma NextPotOfSmall(x: nat)
    requires x <= 1
    ensures NextPot(x) == 1
  {
  }

  /** A power of two is its own `next_pot`. */
  lemma NextPotOfPow2(x: nat)
    requires x <= IntMaxPot && IsPow2(x)
    ensures NextPot(x) == x
  {
    NextPotIsLeast(x, x);
  }

  /** The two alignments the renderer passes to `ALIGN_UP`: 16 bytes and one 4 KiB page. */
  predicate IsAlignment(a: nat) {
    a == 16 || a == 4096
  }

  /** `ALIGN_UP(x, a)`: `x` rounded up to the next multiple of `a`. */
  function AlignUp(x: nat, a: nat): (r: nat)
    requires IsAlignment(a)
    ensures r % a == 0
    ensures x <= r < x + a
  {
    var y := x + a - 1;
    y - y % a
  }

  /** The rounded value is the only multiple of `a` in `[x, x + a)`. */
  lemma AlignUpUnique(x: nat, a: nat, m: nat)
    requires IsAlignment(a)
    requires m % a == 0 && x <= m < x + a
    ensures m == AlignUp(x, a)
  {
  }

  /** A value already aligned is left alone, so aligning twice changes nothing. */
  lemma AlignUpIdempotent(x: nat, a: nat)
    requires IsAlignment(a)
    ensures AlignUp(AlignUp(x, a), a) == AlignUp(x, a)
  {
    AlignUpUnique(AlignUp(x, a), a, AlignUp(x, a));
  }

  /**
    The C mask expression `(x + 15) & ~15` on a 32-bit `size_t`: as long as
    `x + 15` does not wrap, it yields a multiple of 16 in `[x, x + 16)`, the
    same characterisation `AlignUp` has.
   */
  lemma AlignUpMask16(x: bv32)
    requires x <= 0xFFFF_FFFF - 15
    ensures ((x + 15) & !15) % 16 == 0
    ensures x <= (x + 15) & !15
    ensures ((x + 15) & !15) - x < 16
  {
  }

  /** The same for `ALIGN_UP(x, 4096)`. */
  lemma AlignUpMask4096(x: bv32)
    requires x <= 0xFFFF_FFFF - 4095
    ensures ((x + 4095) & !4095) % 4096 == 0
    ensures x <= (x + 4095) & !4095
    ensures ((x + 4095) & !4095) - x < 4096
  {
  }
}

=== FILE: buffers.dfy ===
/**
  The grow-only CPU buffers of both variants: the screen buffer handed out by
  `BeginDraw` and the upload staging buffer. Only capacities are modelled; the
  buffer contents are whatever the caller writes between `BeginDraw` and
  `EndDraw`, and reach the model as an `EndDraw` argument.
 */
module DrawBuffers {
  import opened Bits

  /** Bytes per pixel of the BGRA8888 screen buffer. */
  const BytesPerPixel: nat := 4

  /** Capacity granule of the CPU buffers. */
  const PageSize: nat := 4096

  /**
    The shared growth rule: keep the capacity when the request fits, otherwise
    replace it by the request rounded up to the alignment.
   */
  function Grow(cap: nat, need: nat, align: nat): (r: nat)
    requires IsAlignment(align)
    ensures need <= r && cap <= r
    ensures need <= cap ==> r == cap
    ensures need > cap ==> r % align == 0 && r < need + align
  {
    if need > cap then AlignUp(need, align) else cap
  }

  /** The screen buffer (`g_screen_buffer_size`) and the frame size last requested. */
  datatype DrawTarget = DrawTarget(cap: nat, width: nat, height: nat)

  /** Bytes a frame of the requested size occupies in the screen buffer. */
  function FrameBytes(t: DrawTarget): nat {
    t.width * t.height * BytesPerPixel
  }

  /** Between `BeginDraw` and `EndDraw`: the buffer holds the whole frame. */
  predicate InFrame(t: DrawTarget) {
    FrameBytes(t) <= t.cap
  }

  /** Program start: no buffer, no frame size. */
  const NoTarget: DrawTarget := DrawTarget(0, 0, 0)

  /** Result of `BeginDraw`: the new target and the row pitch handed to the caller. */
  datatype Begun = Begun(target: DrawTarget, pitch: nat)

  /**
    `BeginDraw(width, height)`: make the screen buffer hold `width*height`
    pixels of 4 bytes, growing it to a page multiple only when it is too
    small, and return the pitch of one row.
   */
  function BeginDraw(t: DrawTarget, width: nat, height: nat): (b: Begun)
    ensures InFrame(b.target)
    ensures b.target.width == width && b.target.height == height
    ensures b.pitch == width * BytesPerPixel
    ensures t.cap <= b.target.cap
    ensures width * height * BytesPerPixel <= t.cap ==> b.target.cap == t.cap
    ensures width * height * BytesPerPixel > t.cap ==>
              b.target.cap % PageSize == 0 && b.target.cap < width * height * BytesPerPixel + PageSize
  {
    var needed := width * height * BytesPerPixel;
    Begun(DrawTarget(Grow(t.cap, needed, PageSize), width, height), width * BytesPerPixel)
  }

  /** `ensure_upload_buffer(bytes)`: the staging buffer follows the same grow-only rule. */
  function EnsureUploadBuffer(cap: nat, bytes: nat): (r: nat)
    ensures bytes <= r && cap <= r
    ensures bytes <= cap ==> r == cap
    ensures bytes > cap ==> r % PageSize == 0 && r < bytes + PageSize
  {
    Grow(cap, bytes, PageSize)
  }

  /** A frame size requested by one `BeginDraw` call. */
  datatype Request = Request(width: nat, height: nat)

  /** The target after a series of `BeginDraw` calls. */
  function BeginAll(t: DrawTarget, rs: seq<Request>): DrawTarget
    decreases |rs|
  {
    if |rs| == 0 then t
    else BeginAll(BeginDraw(t, rs[0].width, rs[0].height).target, rs[1..])
  }

  /**
    Over any series of frames the screen buffer never shrinks, ends up large
    enough for every frame requested, and is never reallocated if the first
    capacity already fitted them all.
   */
  lemma {:induction false} BeginAllGrowOnly(t: DrawTarget, rs: seq<Request>)
    ensures t.cap <= BeginAll(t, rs).cap
    ensures forall i :: 0 <= i < |rs| ==>
              rs[i].width * rs[i].height * BytesPerPixel <= BeginAll(t, rs).cap
    ensures (forall i :: 0 <= i < |rs| ==> rs[i].width * rs[i].height * BytesPerPixel <= t.cap) ==>
              BeginAll(t, rs).cap == t.cap
    decreases |rs|
  {
    if |rs| > 0 {
      var t1 := BeginDraw(t, rs[0].width, rs[0].height).target;
      BeginAllGrowOnly(t1, rs[1..]);
      forall i | 1 <= i < |rs|
        ensures rs[i].width * rs[i].height * BytesPerPixel <= BeginAll(t, rs).cap
      {
        assert rs[i] == rs[1..][i - 1];
      }
      if forall i :: 0 <= i < |rs| ==> rs[i].width * rs[i].height * BytesPerPixel <= t.cap {
        assert t1.cap == t.cap;
        forall i | 0 <= i < |rs[1..]|
          ensures rs[1..][i].width * rs[1..][i].height * BytesPerPixel <= t1.cap
        {
          assert rs[1..][i] == rs[i + 1];
        }
      }
    }
  }
}

=== FILE: extensions.dfy ===
/**
  The OpenGL ES capability detector: `has_extension` scans the space-separated
  extension string for a whole-token match and `detect_extensions` derives the
  two capability flags from it.

  A C string is modelled as the characters before its terminating NUL; "the
  character after the match is NUL" becomes "the match ends the sequence". A
  NULL pointer is `None`.
 */
module Extensions {
  import opened Wrappers

  /** `needle` occurs in `s` starting at index `i`. */
  predicate OccursAt(s: string, needle: string, i: nat) {
    i + |needle| <= |s| && s[i..i + |needle|] == needle
  }

  /** The occurrence at `i` is delimited by the start or a space before, and the end or a space after. */
  predicate Delimited(s: string, needle: string, i: nat)
    requires i + |needle| <= |s|
  {
    (i == 0 || s[i - 1] == ' ') && (i + |needle| == |s| || s[i + |needle|] == ' ')
  }

  /** A whole-token occurrence of `needle` at `i`. */
  predicate TokenAt(s: string, needle: string, i: nat) {
    OccursAt(s, needle, i) && Delimited(s, needle, i)
  }

  /** Some whole-token occurrence of `needle` starts at or after `p`. */
  predicate TokenFrom(s: string, needle: string, p: nat) {
    exists i :: p <= i <= |s| && TokenAt(s, needle, i)
  }

  /** The reference meaning of "the list advertises `needle`": some whole-token occurrence. */
  predicate ContainsToken(s: string, needle: string) {
    TokenFrom(s, needle, 0)
  }

  /** `strstr(s + p, needle)`: the first occurrence at or after `p`, if any. */
  function FindFrom(s: string, needle: string, p: nat): (r: Option<nat>)
    requires p <= |s|
    ensures r.Some? ==> p <= r.value && OccursAt(s, needle, r.value)
    ensures r.Some? ==> forall j :: p <= j < r.value ==> !OccursAt(s, needle, j)
    ensures r.None? ==> forall j :: p <= j <= |s| ==> !OccursAt(s, needle, j)
    decreases |s| - p
  {
    if OccursAt(s, needle, p) then Some(p)
    else if p == |s| then None
    else FindFrom(s, needle, p + 1)
  }

  /**
    The inputs on which the scan loop terminates: with an empty needle the
    loop advances by zero, so it stops only if the very first candidate (the
    start of the string) is accepted.
   */
  predicate ScanTerminates(s: string, needle: string) {
    |needle| > 0 || |s| == 0 || s[0] == ' '
  }

  /**
    The `while ((p = strstr(p, needle)))` loop of `has_extension`, resumed at
    offset `p`: accept a delimited occurrence, otherwise skip past it.
   */
  function Scan(s: string, needle: string, p: nat): (found: bool)
    requires p <= |s|
    requires |needle| > 0 || (p == 0 && ScanTerminates(s, needle))
    ensures found ==> TokenFrom(s, needle, p)
    decreases |s| - p
  {
    match FindFrom(s, needle, p)
    case None => false
    case Some(i) =>
      if Delimited(s, needle, i) then
        assert TokenAt(s, needle, i);
        true
      else Scan(s, needle, i + |needle|)
  }

  /** `has_extension(exts, needle)`. */
  function HasExtension(exts: Option<string>, needle: Option<string>): (found: bool)
    requires exts.Some? && needle.Some? ==> ScanTerminates(exts.value, needle.value)
    ensures found ==> exts.Some? && needle.Some? && ContainsToken(exts.value, needle.value)
  {
    match (exts, needle)
    case (Some(s), Some(n)) => Scan(s, n, 0)
    case _ => false
  }

  /** The needles the detector looks for contain no space and are not empty. */
  predicate IsTokenName(needle: string) {
    |needle| > 0 && ' ' !in needle
  }

  /**
    Resuming the scan at `p` finds a token exactly when one starts at or
    after `p`, for a space-free needle: an occurrence skipped over cannot hide
    the start of a token, because a token must follow a space.
   */
  lemma {:induction false} ScanFindsTokens(s: string, needle: string, p: nat)
    requires p <= |s| && IsTokenName(needle)
    ensures Scan(s, needle, p) <==> TokenFrom(s, needle, p)
    decreases |s| - p
  {
    var r := FindFrom(s, needle, p);
    if r.Some? && Delimited(s, needle, r.value) {
      assert TokenAt(s, needle, r.value);
    } else if r.Some? {
      var q := r.value + |needle|;
      assert Scan(s, needle, p) == Scan(s, needle, q);
      ScanFindsTokens(s, needle, q);
      SkippedHoldsNoToken(s, needle, p, r.value);
      if TokenFrom(s, needle, p) {
        var k :| p <= k <= |s| && TokenAt(s, needle, k);
        assert TokenFrom(s, needle, q);
      }
    }
  }

  /**
    When the first occurrence at or after `p` is at `i` and not delimited,
    no token of a space-free needle starts before `i + |needle|`: an earlier
    start is no occurrence, and a later one would follow a needle character,
    not a space.
   */
  lemma SkippedHoldsNoToken(s: string, needle: string, p: nat, i: nat)
    requires p <= i && IsTokenName(needle)
    requires OccursAt(s, needle, i) && !Delimited(s, needle, i)
    requires forall j :: p <= j < i ==> !OccursAt(s, needle, j)
    ensures forall j :: p <= j < i + |needle| ==> !TokenAt(s, needle, j)
  {
    forall j | i < j < i + |needle|
      ensures !TokenAt(s, needle, j)
    {
      assert s[j - 1] == s[i..i + |needle|][j - 1 - i] == needle[j - 1 - i];
      assert s[j - 1] != ' ';
    }
  }

  /** `has_extension` is true exactly on a whole-token match, for the needles the detector uses. */
  lemma HasExtensionIffToken(exts: string, needle: string)
    requires IsTokenName(needle)
    ensures HasExtension(Some(exts), Some(needle)) <==> ContainsToken(exts, needle)
  {
    ScanFindsTokens(exts, needle, 0);
  }

  /** A NULL list or needle never matches. */
  lemma HasExtensionNull(exts: Option<string>, needle: Option<string>)
    requires exts.None? || needle.None?
    ensures !HasExtension(exts, needle)
  {
  }

  /**
    With a space inside the needle the skip-ahead can step over a real match:
    in "xa a a" the token "a a" at index 3 is missed, because the scan
    resumes at index 4 after rejecting the occurrence at 1.
   */
  lemma ScanMissesSpacedNeedle()
    ensures ContainsToken("xa a a", "a a")
    ensures !HasExtension(Some("xa a a"), Some("a a"))
  {
    var s, n := "xa a a", "a a";
    assert TokenAt(s, n, 3) by {
      assert s[3..6] == n;
    }
    assert OccursAt(s, n, 1) by {
      assert s[1..4] == n;
    }
    assert !OccursAt(s, n, 0) by {
      assert s[0] != n[0];
    }
    assert FindFrom(s, n, 0) == Some(1);
    assert !OccursAt(s, n, 4);
    assert !OccursAt(s, n, 5);
    assert !OccursAt(s, n, 6);
    assert FindFrom(s, n, 4) == None;
  }

  const BgraExtension: string := "GL_EXT_texture_format_BGRA8888"
  const OesNpotExtension: string := "GL_OES_texture_npot"
  const ArbNpotExtension: string := "GL_ARB_texture_non_power_of_two"
  const ImgNpotExtension: string := "GL_IMG_texture_npot"

  /** The capability flags `detect_extensions` sets. */
  datatype Caps = Caps(hasBgra: bool, hasNpot: bool)

  /**
    `detect_extensions`: direct BGRA upload if the BGRA8888 format extension
    is advertised, non-power-of-two textures if any of three npot extensions is.
   */
  function DetectExtensions(exts: Option<string>): (c: Caps)
    ensures exts.None? ==> c == Caps(false, false)
    ensures exts.Some? ==> (c.hasBgra <==> ContainsToken(exts.value, BgraExtension))
    ensures exts.Some? ==> (c.hasNpot <==>
              || ContainsToken(exts.value, OesNpotExtension)
              || ContainsToken(exts.value, ArbNpotExtension)
              || ContainsToken(exts.value, ImgNpotExtension))
  {
    var c := Caps(
      HasExtension(exts, Some(BgraExtension)),
      HasExtension(exts, Some(OesNpotExtension))
      || HasExtension(exts, Some(ArbNpotExtension))
      || HasExtension(exts, Some(ImgNpotExtension)));
    if exts.None? then c
    else
      TokenNames();
      HasExtensionIffToken(exts.value, BgraExtension);
      HasExtensionIffToken(exts.value, OesNpotExtension);
      HasExtensionIffToken(exts.value, ArbNpotExtension);
      HasExtensionIffToken(exts.value, ImgNpotExtension);
      c
  }

  lemma TokenNames()
    ensures IsTokenName(BgraExtension) && IsTokenName(OesNpotExtension)
    ensures IsTokenName(ArbNpotExtension) && IsTokenName(ImgNpotExtension)
  {
  }

  /** The example list of two extensions, as a constant. */
  const BothListed: string := "GL_EXT_texture_format_BGRA8888 GL_OES_texture_npot"

  lemma BothListedTokens()
    ensures TokenAt(BothListed, BgraExtension, 0)
    ensures TokenAt(BothListed, OesNpotExtension, 31)
  {
    assert BothListed[0..30] == BgraExtension;
    assert BothListed[31..50] == OesNpotExtension;
  }

  /** A list advertising both extensions yields both capabilities. */
  lemma DetectBothExtensions()
    ensures DetectExtensions(Some(BothListed)) == Caps(true, true)
  {
    BothListedTokens();
  }

  /** A longer token that merely starts with the needle does not match. */
  lemma DetectRejectsLongerToken()
    ensures !DetectExtensions(Some("GL_EXT_texture_format_BGRA88880")).hasBgra
  {
    var s := "GL_EXT_texture_format_BGRA88880";
    forall i | 0 <= i <= |s|
      ensures !TokenAt(s, BgraExtension, i)
    {
      if i == 1 {
        assert s[1] != BgraExtension[0];
      }
    }
  }
}

=== FILE: filters.dfy ===
/**
  Texture-filter state caching, the same in both variants: `EndDraw` issues
  the filter call only when the wanted filter differs from the cached one,
  and then updates the cache.
 */
module Filters {
  import opened Wrappers

  /** `g_last_filter` before any filter is known. */
  const NoFilter: int := -1

  /** `GU_NEAREST` and `GU_LINEAR`. */
  const GuNearest: int := 0
  const GuLinear: int := 1

  /** `GL_NEAREST` and `GL_LINEAR`. */
  const GlNearest: int := 0x2600
  const GlLinear: int := 0x2601

  /** The filter `g_config.linear_filtering` selects among a nearest and a linear constant. */
  function Wanted(linear: bool, nearest: int, lin: int): int {
    if linear then lin else nearest
  }

  /** The cache after one frame and the filter call issued, if any. */
  datatype FilterStep = FilterStep(last: int, issued: Option<int>)

  /** One frame's `if (wanted != g_last_filter) { set(wanted); g_last_filter = wanted; }`. */
  function SetFilter(last: int, wanted: int): (s: FilterStep)
    ensures s.last == wanted
    ensures s.issued.Some? <==> wanted != last
    ensures s.issued.Some? ==> s.issued.value == wanted
  {
    if wanted != last then FilterStep(wanted, Some(wanted)) else FilterStep(last, None)
  }

  /** The filter the GPU holds after an optional call. */
  function Apply(device: int, issued: Option<int>): int {
    match issued
    case Some(f) => f
    case None => device
  }

  /** The cache and the GPU filter after a series of frames wanting `ws`. */
  datatype FilterState = FilterState(last: int, device: int)

  function RunFilters(st: FilterState, ws: seq<int>): FilterState
    decreases |ws|
  {
    if |ws| == 0 then st
    else
      var s := SetFilter(st.last, ws[0]);
      RunFilters(FilterState(s.last, Apply(st.device, s.issued)), ws[1..])
  }

  /**
    The cache is sound: if it starts either unknown or equal to the GPU's
    filter, then after any non-empty series of frames the GPU holds the
    filter the last frame wanted and the cache agrees with it, so skipping
    the call never leaves a stale filter.
   */
  lemma {:induction false} FilterCacheSound(st: FilterState, ws: seq<int>)
    requires st.last == st.device || st.last == NoFilter
    requires forall i :: 0 <= i < |ws| ==> ws[i] != NoFilter
    requires |ws| > 0
    ensures RunFilters(st, ws).device == ws[|ws| - 1]
    ensures RunFilters(st, ws).last == RunFilters(st, ws).device
    decreases |ws|
  {
    var s := SetFilter(st.last, ws[0]);
    var st1 := FilterState(s.last, Apply(st.device, s.issued));
    assert st1.last == st1.device;
    if |ws| > 1 {
      forall i | 0 <= i < |ws[1..]|
        ensures ws[1..][i] != NoFilter
      {
        assert ws[1..][i] == ws[i + 1];
      }
      FilterCacheSound(st1, ws[1..]);
      assert ws[1..][|ws[1..]| - 1] == ws[|ws| - 1];
    }
  }
}

=== FILE: geometry.dfy ===
/**
  The aspect-ratio viewport both variants compute in `EndDraw`, and the
  texture-coordinate extents of the OpenGL ES variant.

  All quantities are non-negative, so C's truncating `/` and `>> 1` agree
  with Dafny's `/` and `/ 2`. The extents are exact rationals (`real`)
  rather than `GLfloat`.
 */
module Geometry {

  /** A viewport rectangle in drawable pixels. */
  datatype Rect = Rect(x: nat, y: nat, w: nat, h: nat)

  /** `(d - v) >> 1`: the offset that centres a span of `v` in one of `d`. */
  function Centre(d: nat, v: nat): (o: nat)
    requires v <= d
    ensures 2 * o <= d - v < 2 * o + 2
  {
    (d - v) / 2
  }

  /**
    The division the aspect-locked computation performs is by a non-zero
    value: the letterbox branch divides by the source width, which its guard
    makes positive, and the pillarbox branch divides by the source height.
   */
  predicate ViewportDefined(dw: nat, dh: nat, sw: nat, sh: nat, lock: bool) {
    !lock || dw * sh < dh * sw || sh > 0
  }

  /** `q = a / b` is the floor of the rational a/b. */
  lemma FloorDiv(a: nat, b: nat)
    requires b > 0
    ensures (a / b) * b <= a < (a / b + 1) * b
  {
  }

  /** Multiplication by a natural is monotone. */
  lemma MulLe(a: nat, b: nat, c: nat)
    requires a <= b
    ensures a * c <= b * c
  {
    var d := b - a;
    assert b * c == a * c + d * c;
  }

  /** A quotient whose dividend is at most `limit` times the divisor is at most `limit`. */
  lemma DivBound(n: nat, d: nat, limit: nat)
    requires d > 0 && n <= limit * d
    ensures n / d <= limit
  {
    var q := n / d;
    FloorDiv(n, d);
    if limit < q {
      MulLe(limit + 1, q, d);
    }
  }

  /** Multiplying by a positive factor preserves the order of naturals, in both directions. */
  lemma MulMonotone(a: nat, b: nat, c: nat)
    requires c > 0
    ensures a * c <= b * c <==> a <= b
  {
    if a <= b {
      MulLe(a, b, c);
    } else {
      MulLe(b + 1, a, c);
      assert (b + 1) * c == b * c + c;
    }
  }

  /**
    The fitted side `n / d` of a viewport: the largest span whose ratio
    `q : limit` keeps the source's aspect, with `n <= limit * d` keeping it
    within the drawable.
   */
  function Fitted(n: nat, d: nat, limit: nat): (q: nat)
    requires d > 0 && n <= limit * d
    ensures q <= limit
    ensures q * d <= n < (q + 1) * d
  {
    var q := n / d;
    FloorDiv(n, d);
    DivBound(n, d, limit);
    assert q * d <= n;
    assert n < (q + 1) * d;
    q
  }

  /**
    The viewport of `EndDraw` for a drawable of `dw` x `dh` and a frame of
    `sw` x `sh`. With `lock` (aspect ratio kept) the source shape is fitted
    inside the drawable: the full width when the source is relatively wider,
    the full height otherwise; the other side is the truncated quotient.
   */
  function Viewport(dw: nat, dh: nat, sw: nat, sh: nat, lock: bool): (v: Rect)
    requires ViewportDefined(dw, dh, sw, sh, lock)
    ensures v.w <= dw && v.h <= dh
    ensures v.w == dw || v.h == dh
    ensures 2 * v.x <= dw - v.w < 2 * v.x + 2
    ensures 2 * v.y <= dh - v.h < 2 * v.y + 2
    ensures !lock ==> v == Rect(0, 0, dw, dh)
    ensures lock && dw * sh < dh * sw ==> v.w == dw && v.h * sw <= dw * sh < (v.h + 1) * sw
    ensures lock && dw * sh >= dh * sw ==> v.h == dh && v.w * sh <= dh * sw < (v.w + 1) * sh
  {
    var (vw, vh) := (
      if !lock then (dw, dh)
      else if dw * sh < dh * sw then (dw, Fitted(dw * sh, sw, dh))
      else (Fitted(dh * sw, sh, dw), dh));
    Rect(Centre(dw, vw), Centre(dh, vh), vw, vh)
  }

  /**
    The letterboxed side is the largest that keeps the source's aspect: any
    span `k` whose ratio to the full side does not exceed the source's is at
    most the computed one.
   */
  lemma ViewportIsLargestFit(dw: nat, dh: nat, sw: nat, sh: nat, k: nat)
    requires sw > 0 && sh > 0
    requires dw * sh < dh * sw ==> k * sw <= dw * sh
    requires dw * sh >= dh * sw ==> k * sh <= dh * sw
    ensures dw * sh < dh * sw ==> k <= Viewport(dw, dh, sw, sh, true).h
    ensures dw * sh >= dh * sw ==> k <= Viewport(dw, dh, sw, sh, true).w
  {
    var v := Viewport(dw, dh, sw, sh, true);
    if dw * sh < dh * sw {
      MulMonotone(k, v.h + 1, sw);
    } else {
      MulMonotone(k, v.w + 1, sh);
    }
  }

  /** The PSP screen. */
  const PspWidth: nat := 480
  const PspHeight: nat := 272

  /** A 320x240 frame on the 480x272 PSP screen is pillarboxed to 362x272 at x = 59. */
  lemma ViewportExample()
    ensures Viewport(PspWidth, PspHeight, 320, 240, true) == Rect(59, 0, 362, 272)
    ensures Viewport(PspWidth, PspHeight, 320, 240, false) == Rect(0, 0, 480, 272)
  {
    assert (272 * 320) / 240 == 362;
  }

  /**
    The texture-coordinate extent `w / tex`: how much of a texture of `tex`
    texels a frame span of `w` covers, as an exact rational.
   */
  function TexExtent(w: nat, tex: nat): (e: real)
    requires 0 < tex && w <= tex
    ensures 0.0 <= e <= 1.0
    ensures e == 0.0 <==> w == 0
    ensures e == 1.0 <==> w == tex
    ensures e * (tex as real) == w as real
  {
    (w as real) / (tex as real)
  }
}

=== FILE: gles.dfy ===
/**
  The OpenGL ES back end: the renderer state threaded through `Init`,
  `BeginDraw` and `EndDraw`, the choice of upload path, the texture size
  and its reallocation, and the cached texture-coordinate extents.

  GL and SDL calls are effects outside the model; `EndDraw` reports what it
  hands to them in a `GlesFrame`. The drawable size is a parameter.
 */
module GlesRenderer {
  import opened Wrappers
  import opened Bits
  import opened DrawBuffers
  import opened Pixels
  import opened Geometry
  import opened Filters
  import opened Extensions

  /**
    The renderer's statics: the screen buffer, the upload buffer's capacity,
    the detected capabilities, `g_use_rgb565`, the allocated texture size
    `g_tex_max_w`/`g_tex_max_h`, the frame size the texture coordinates were
    computed for `g_last_w`/`g_last_h`, `g_last_filter`, and the extents
    held in `g_texcoords`.
   */
  datatype GlesState = GlesState(
    target: DrawTarget,
    uploadCap: nat,
    caps: Caps,
    useRgb565: bool,
    texMaxW: nat,
    texMaxH: nat,
    lastW: int,
    lastH: int,
    lastFilter: int,
    umax: real,
    vmax: real)

  /** The statics at program start: no texture, no cached frame size, unit extents. */
  const Start: GlesState := GlesState(NoTarget, 0, Caps(false, false), false, 0, 0, -1, -1, NoFilter, 1.0, 1.0)

  /**
    The cached extents describe the allocated texture whenever both the
    texture and the cached frame size are known (`g_last_w` is -1 until the
    first frame and after each re-specification).
   */
  predicate CacheValid(s: GlesState) {
    s.lastW >= 0 && s.lastH >= 0 && s.texMaxW > 0 && s.texMaxH > 0 ==>
      && s.lastW <= s.texMaxW && s.lastH <= s.texMaxH
      && s.umax == TexExtent(s.lastW, s.texMaxW)
      && s.vmax == TexExtent(s.lastH, s.texMaxH)
  }

  lemma StartCacheValid()
    ensures CacheValid(Start)
  {
  }

  /**
    `Init`: detect the extensions, prefer RGB565 on OpenGL ES (`es` is the
    flag `OpenGLRenderer_Create` stored), forget the texture size and set
    the initial filter. The cached frame size and extents are kept.
   */
  function Init(s: GlesState, exts: Option<string>, es: bool, linear: bool): (r: GlesState)
    ensures r.caps == DetectExtensions(exts) && r.useRgb565 == es
    ensures r.texMaxW == 0 && r.texMaxH == 0
    ensures r.lastFilter == Wanted(linear, GlNearest, GlLinear)
    ensures r.target == s.target && r.uploadCap == s.uploadCap
    ensures r.lastW == s.lastW && r.lastH == s.lastH && r.umax == s.umax && r.vmax == s.vmax
    ensures CacheValid(r)
  {
    s.(caps := DetectExtensions(exts), useRgb565 := es, texMaxW := 0, texMaxH := 0,
       lastFilter := Wanted(linear, GlNearest, GlLinear))
  }

  /** `Destroy`: free both CPU buffers; the texture size and caches are left as they were. */
  function Destroy(s: GlesState): (r: GlesState)
    ensures r.uploadCap == 0 && r.target.cap == 0
    ensures r == s.(target := r.target, uploadCap := 0)
    ensures r.target.width == s.target.width && r.target.height == s.target.height
    ensures CacheValid(s) ==> CacheValid(r)
  {
    s.(target := s.target.(cap := 0), uploadCap := 0)
  }

  /** `BeginDraw` on OpenGL ES: the shared grow-only screen buffer. */
  function BeginFrame(s: GlesState, width: nat, height: nat): (r: GlesState)
    ensures r.target == BeginDraw(s.target, width, height).target
    ensures r == s.(target := r.target)
  {
    s.(target := BeginDraw(s.target, width, height).target)
  }

  /** A texture size in texels. */
  datatype TexSize = TexSize(w: nat, h: nat)

  /**
    The texture size `EndDraw` wants for a `w` x `h` frame: the frame size
    itself when non-power-of-two textures are supported, otherwise each side
    rounded up to a power of two.
   */
  function DesiredSize(npot: bool, w: nat, h: nat): (t: TexSize)
    requires w <= IntMaxPot && h <= IntMaxPot
    ensures w <= t.w && h <= t.h
    ensures npot ==> t == TexSize(w, h)
    ensures !npot ==> IsPow2(t.w) && IsPow2(t.h) && 0 < t.w && 0 < t.h
    ensures !npot ==> forall q :: IsPow2(q) && w <= q ==> t.w <= q
    ensures !npot ==> forall q :: IsPow2(q) && h <= q ==> t.h <= q
  {
    if npot then TexSize(w, h)
    else
      var t := TexSize(NextPot(w), NextPot(h));
      assert forall q :: IsPow2(q) && w <= q ==> t.w <= q by {
        forall q | IsPow2(q) && w <= q
          ensures t.w <= q
        {
          NextPotIsLeast(w, q);
        }
      }
      assert forall q :: IsPow2(q) && h <= q ==> t.h <= q by {
        forall q | IsPow2(q) && h <= q
          ensures t.h <= q
        {
          NextPotIsLeast(h, q);
        }
      }
      t
  }

  /** The pixels handed to `glTexSubImage2D`, in the format of the path chosen. */
  datatype Upload =
    | Packed565(texels: seq<bv16>)
    | DirectBgra(bytes: seq<bv8>)
    | Reordered(bytes: seq<bv8>)

  /** The pixels to upload and the upload buffer's capacity afterwards. */
  datatype Staged = Staged(upload: Upload, uploadCap: nat)

  /**
    The upload path of `EndDraw` for `px` pixels: RGB565 packed red-high when
    `g_use_rgb565`, else the screen buffer as is when the BGRA8888 format
    extension is present, else the pixels reordered to RGBA. The packed and
    reordered paths stage through the upload buffer, grown to 2 or 4 bytes a
    pixel. The reorder is `swizzle_bgra_to_rgba` as written, so green and
    alpha come out as green|alpha (see `ReorderPathAgreesIff`).
   */
  function ChooseUpload(useRgb565: bool, hasBgra: bool, uploadCap: nat, screen: seq<bv8>, px: nat): (st: Staged)
    requires 4 * px <= |screen|
    ensures useRgb565 ==> st.upload.Packed565? && |st.upload.texels| == px
    ensures useRgb565 ==> forall i :: 0 <= i < px ==> PacksPixel(RedHigh, st.upload.texels[i], screen, i)
    ensures useRgb565 ==> st.uploadCap == EnsureUploadBuffer(uploadCap, px * 2)
    ensures !useRgb565 && hasBgra ==>
              st.upload.DirectBgra? && st.upload.bytes == screen[..4 * px] && st.uploadCap == uploadCap
    ensures !useRgb565 && !hasBgra ==> st.upload.Reordered? && |st.upload.bytes| == 4 * px
    ensures !useRgb565 && !hasBgra ==> forall i :: 0 <= i < px ==>
              && Channel(st.upload.bytes, i, 0) == Channel(screen, i, RedByte)
              && Channel(st.upload.bytes, i, 1) == Channel(screen, i, GreenByte) | Channel(screen, i, AlphaByte)
              && Channel(st.upload.bytes, i, 2) == Channel(screen, i, BlueByte)
              && Channel(st.upload.bytes, i, 3) == Channel(screen, i, GreenByte) | Channel(screen, i, AlphaByte)
    ensures !useRgb565 && !hasBgra ==> st.uploadCap == EnsureUploadBuffer(uploadCap, px * 4)
  {
    if useRgb565 then
      Staged(Packed565(PackPixels(RedHigh, screen, px)), EnsureUploadBuffer(uploadCap, px * 2))
    else if hasBgra then
      Staged(DirectBgra(screen[..4 * px]), uploadCap)
    else
      Staged(Reordered(SwizzlePixels(screen, px)), EnsureUploadBuffer(uploadCap, px * 4))
  }

  /**
    On the reorder path the upload is the intended RGBA image exactly when
    every pixel's green byte equals its alpha byte; otherwise the texture
    receives green|alpha in both places.
   */
  lemma ReorderPathAgreesIff(uploadCap: nat, screen: seq<bv8>, px: nat)
    requires 4 * px <= |screen|
    ensures ChooseUpload(false, false, uploadCap, screen, px).upload == Reordered(ReorderPixels(screen, px)) <==>
              forall i :: 0 <= i < px ==> Channel(screen, i, GreenByte) == Channel(screen, i, AlphaByte)
  {
    SwizzlePixelsAgreesIff(screen, px);
  }

  /** What `EndDraw` hands to GL: the viewport, the pixels, the filter call, the reallocation and whether the texture coordinates were rewritten. */
  datatype GlesFrame = GlesFrame(
    viewport: Rect,
    upload: Upload,
    filterCall: Option<int>,
    realloc: Option<TexSize>,
    texcoordsSet: bool)

  /** The state after `EndDraw` and what the frame showed. */
  datatype GlesDrawn = GlesDrawn(state: GlesState, frame: GlesFrame)

  /**
    The frames `EndDraw` handles: the caller has called `BeginDraw`,
    `next_pot` stays in range, the viewport divides by a non-zero value, and
    with non-power-of-two textures the frame is not empty (a zero side would
    give a 0/0 extent). Without them a zero side gets a texture side of 1.
   */
  predicate Drawable(s: GlesState, screen: seq<bv8>, dw: nat, dh: nat, lock: bool) {
    && InFrame(s.target) && |screen| == s.target.cap
    && s.target.width <= IntMaxPot && s.target.height <= IntMaxPot
    && (s.caps.hasNpot ==> 0 < s.target.width && 0 < s.target.height)
    && ViewportDefined(dw, dh, s.target.width, s.target.height, lock)
  }

  /** The frame's pixels fit in the screen buffer. */
  lemma FrameFits(s: GlesState, screen: seq<bv8>)
    requires InFrame(s.target) && |screen| == s.target.cap
    ensures 4 * (s.target.width * s.target.height) <= |screen|
  {
  }

  /**
    `EndDraw` for a drawable of `dw` x `dh`: viewport, upload, filter, the
    texture re-specified exactly when the wanted size differs from the
    allocated one (growing or shrinking), and the texture coordinates
    recomputed exactly when the frame size differs from the cached one or
    the texture was re-specified. Afterwards the extents are `w/texW` and
    `h/texH` of the current texture.
   */
  function EndDraw(s: GlesState, screen: seq<bv8>, dw: nat, dh: nat, lock: bool, linear: bool): (d: GlesDrawn)
    requires Drawable(s, screen, dw, dh, lock) && CacheValid(s)
    ensures CacheValid(d.state)
    ensures d.frame.viewport == Viewport(dw, dh, s.target.width, s.target.height, lock)
    ensures var st := ChooseUpload(s.useRgb565, s.caps.hasBgra, s.uploadCap, screen, s.target.width * s.target.height);
              d.frame.upload == st.upload && d.state.uploadCap == st.uploadCap
    ensures TexSize(d.state.texMaxW, d.state.texMaxH) == DesiredSize(s.caps.hasNpot, s.target.width, s.target.height)
    ensures d.frame.realloc.Some? <==> TexSize(d.state.texMaxW, d.state.texMaxH) != TexSize(s.texMaxW, s.texMaxH)
    ensures d.frame.realloc.Some? ==> d.frame.realloc.value == TexSize(d.state.texMaxW, d.state.texMaxH)
    ensures d.frame.texcoordsSet <==>
              d.frame.realloc.Some? || s.lastW != s.target.width || s.lastH != s.target.height
    ensures !d.frame.texcoordsSet ==> d.state.umax == s.umax && d.state.vmax == s.vmax
    ensures d.state.lastW == s.target.width && d.state.lastH == s.target.height
    ensures d.state.umax == TexExtent(s.target.width, d.state.texMaxW)
    ensures d.state.vmax == TexExtent(s.target.height, d.state.texMaxH)
    ensures d.state.lastFilter == Wanted(linear, GlNearest, GlLinear)
    ensures d.frame.filterCall.Some? <==> Wanted(linear, GlNearest, GlLinear) != s.lastFilter
    ensures d.frame.filterCall.Some? ==> d.frame.filterCall.value == Wanted(linear, GlNearest, GlLinear)
    ensures d.state.target == s.target && d.state.caps == s.caps && d.state.useRgb565 == s.useRgb565
  {
    var w, h := s.target.width, s.target.height;
    FrameFits(s, screen);
    var view := Viewport(dw, dh, w, h, lock);
    var st := ChooseUpload(s.useRgb565, s.caps.hasBgra, s.uploadCap, screen, w * h);
    var f := SetFilter(s.lastFilter, Wanted(linear, GlNearest, GlLinear));
    var want := DesiredSize(s.caps.hasNpot, w, h);
    var realloc := want != TexSize(s.texMaxW, s.texMaxH);
    var (lastW, lastH) := if realloc then (-1, -1) else (s.lastW, s.lastH);
    var update := lastW != w || lastH != h;
    var (umax, vmax) := if update then (TexExtent(w, want.w), TexExtent(h, want.h)) else (s.umax, s.vmax);
    var s' := s.(uploadCap := st.uploadCap, lastFilter := f.last, texMaxW := want.w, texMaxH := want.h,
                 lastW := w, lastH := h, umax := umax, vmax := vmax);
    GlesDrawn(s', GlesFrame(view, st.upload, f.issued, if realloc then Some(want) else None, update))
  }

  /**
    Drawing the same frame again with the same settings changes nothing: no
    reallocation, no filter call, no texture-coordinate update, and the
    state stays as the first call left it.
   */
  lemma EndDrawRepeat(s: GlesState, screen: seq<bv8>, dw: nat, dh: nat, lock: bool, linear: bool)
    requires Drawable(s, screen, dw, dh, lock) && CacheValid(s)
    ensures var d1 := EndDraw(s, screen, dw, dh, lock, linear);
            var d2 := EndDraw(d1.state, screen, dw, dh, lock, linear);
            && d2.frame.realloc.None? && d2.frame.filterCall.None? && !d2.frame.texcoordsSet
            && d2.state == d1.state
  {
    var d1 := EndDraw(s, screen, dw, dh, lock, linear);
    assert Drawable(d1.state, screen, dw, dh, lock);
    var d2 := EndDraw(d1.state, screen, dw, dh, lock, linear);
    if s.useRgb565 {
      assert d2.state.uploadCap == d1.state.uploadCap;
    }
  }

  /**
    Without non-power-of-two support, a 256x224 frame after a 512x512 texture
    re-specifies the texture at 256x256: a smaller size also triggers it.
   */
  lemma ShrinkReallocates(s: GlesState, screen: seq<bv8>)
    requires Drawable(s, screen, 480, 272, true) && CacheValid(s)
    requires !s.caps.hasNpot && s.texMaxW == 512 && s.texMaxH == 512
    requires s.target.width == 256 && s.target.height == 224
    ensures EndDraw(s, screen, 480, 272, true, false).frame.realloc == Some(TexSize(256, 256))
  {
    assert IsPow2(256) by {
      assert IsPow2(2) && IsPow2(4) && IsPow2(8) && IsPow2(16) && IsPow2(32) && IsPow2(64) && IsPow2(128);
    }
    NextPotOfPow2(256);
    NextPotIsLeast(224, 256);
  }

  /** With non-power-of-two support the texture is exactly the frame and the extents are 1. */
  lemma NpotExtentsAreOne(s: GlesState, screen: seq<bv8>, dw: nat, dh: nat, lock: bool, linear: bool)
    requires Drawable(s, screen, dw, dh, lock) && CacheValid(s) && s.caps.hasNpot
    ensures EndDraw(s, screen, dw, dh, lock, linear).state.umax == 1.0
    ensures EndDraw(s, screen, dw, dh, lock, linear).state.vmax == 1.0
  {
  }

  /**
    Without non-power-of-two support a zero-width frame is drawn into a
    texture one texel wide, and its horizontal extent is 0.
   */
  lemma ZeroWidthWithoutNpot(s: GlesState, screen: seq<bv8>, dw: nat, dh: nat, lock: bool, linear: bool)
    requires Drawable(s, screen, dw, dh, lock) && CacheValid(s)
    requires !s.caps.hasNpot && s.target.width == 0
    ensures EndDraw(s, screen, dw, dh, lock, linear).state.texMaxW == 1
    ensures EndDraw(s, screen, dw, dh, lock, linear).state.umax == 0.0
  {
    NextPotOfSmall(0);
  }
}

=== FILE: pixels.dfy ===
/**
  The per-pixel format kernels: BGRA8888 to 16-bit 565 in the two bit orders
  the back ends use, and the 32-bit BGRA to RGBA reorder of the OpenGL ES
  upload path.

  A source pixel is four bytes in memory order blue, green, red, alpha. A
  32-bit word read from or written to memory is little-endian.
 */
module Pixels {

  /** Byte positions of the channels inside one BGRA8888 pixel. */
  const BlueByte: nat := 0
  const GreenByte: nat := 1
  const RedByte: nat := 2
  const AlphaByte: nat := 3

  /** Byte `k` of pixel `i` in a tightly packed 4-byte-per-pixel buffer. */
  function Channel(s: seq<bv8>, i: nat, k: nat): bv8
    requires k < 4 && 4 * i + k < |s|
  {
    s[4 * i + k]
  }

  // ---------------------------------------------------------------------------
  // 565 packing

  /** The top five bits of a 565 texel (bits 15..11). */
  function High5(p: bv16): bv8 {
    (p >> 11) as bv8
  }

  /** The middle six bits of a 565 texel (bits 10..5). */
  function Mid6(p: bv16): bv8 {
    ((p >> 5) & 0x3F) as bv8
  }

  /** The low five bits of a 565 texel (bits 4..0). */
  function Low5(p: bv16): bv8 {
    (p & 0x1F) as bv8
  }

  /**
    The OpenGL ES kernel on one pixel: red in bits 15..11, green in 10..5,
    blue in 4..0. The fields are computed in `int` (here 32 bits) and the
    result is cast to 16 bits, which loses nothing.
   */
  function PackRgb565(b: bv8, g: bv8, r: bv8): (p: bv16)
    ensures High5(p) == r >> 3
    ensures Mid6(p) == g >> 2
    ensures Low5(p) == b >> 3
  {
    var r5 := (r >> 3) as bv32 & 0x1F;
    var g6 := (g >> 2) as bv32 & 0x3F;
    var b5 := (b >> 3) as bv32 & 0x1F;
    var wide := (r5 << 11) | (g6 << 5) | b5;
    wide as bv16
  }

  /** The PSP kernel on one pixel: blue in bits 15..11, green in 10..5, red in 4..0. */
  function PackBgr565(b: bv8, g: bv8, r: bv8): (p: bv16)
    ensures High5(p) == b >> 3
    ensures Mid6(p) == g >> 2
    ensures Low5(p) == r >> 3
  {
    var r5 := (r >> 3) as bv32 & 0x1F;
    var g6 := (g >> 2) as bv32 & 0x3F;
    var b5 := (b >> 3) as bv32 & 0x1F;
    var wide := (b5 << 11) | (g6 << 5) | r5;
    wide as bv16
  }

  /** The two kernels differ only in which of red and blue goes high. */
  lemma PackOrdersMirror(b: bv8, g: bv8, r: bv8)
    ensures PackBgr565(b, g, r) == PackRgb565(r, g, b)
  {
  }

  /** A 16-bit texel is put back together from its three fields. */
  lemma FieldsRecompose(p: bv16)
    ensures p == ((High5(p) as bv16) << 11) | ((Mid6(p) as bv16) << 5) | (Low5(p) as bv16)
  {
  }

  /** Two texels are equal exactly when their three fields are. */
  lemma FieldsIff(p: bv16, q: bv16)
    ensures p == q <==> (High5(p) == High5(q) && Mid6(p) == Mid6(q) && Low5(p) == Low5(q))
  {
    if High5(p) == High5(q) && Mid6(p) == Mid6(q) && Low5(p) == Low5(q) {
      FieldsRecompose(p);
      FieldsRecompose(q);
    }
  }

  /** Which of the two bit orders a kernel uses. */
  datatype Order565 = RedHigh | BlueHigh

  /** Pixel `i` of `src` packed in the given order; the alpha byte is never read. */
  function PackTexel(order: Order565, src: seq<bv8>, i: nat): bv16
    requires 4 * i + 3 < |src|
  {
    var b, g, r := Channel(src, i, BlueByte), Channel(src, i, GreenByte), Channel(src, i, RedByte);
    match order
    case RedHigh => PackRgb565(b, g, r)
    case BlueHigh => PackBgr565(b, g, r)
  }

  /** Green keeps its top six bits; red and blue their top five, in the order's places. */
  predicate PacksPixel(order: Order565, p: bv16, src: seq<bv8>, i: nat)
    requires 4 * i + 3 < |src|
  {
    var hi, lo := if order.RedHigh? then RedByte else BlueByte, if order.RedHigh? then BlueByte else RedByte;
    && High5(p) == Channel(src, i, hi) >> 3
    && Mid6(p) == Channel(src, i, GreenByte) >> 2
    && Low5(p) == Channel(src, i, lo) >> 3
  }

  /** The first `px` pixels of `src`, packed. */
  function PackPixels(order: Order565, src: seq<bv8>, px: nat): (dst: seq<bv16>)
    requires 4 * px <= |src|
    ensures |dst| == px
    ensures forall i :: 0 <= i < px ==> PacksPixel(order, dst[i], src, i)
  {
    seq(px, i requires 0 <= i < px => PackTexel(order, src, i))
  }

  /** The packed image does not depend on the alpha bytes of the source. */
  lemma PackPixelsIgnoresAlpha(order: Order565, src: seq<bv8>, src': seq<bv8>, px: nat)
    requires 4 * px <= |src| && 4 * px <= |src'|
    requires forall i :: 0 <= i < 4 * px && i % 4 != AlphaByte ==> src[i] == src'[i]
    ensures PackPixels(order, src, px) == PackPixels(order, src', px)
  {
    forall i | 0 <= i < px
      ensures PackPixels(order, src, px)[i] == PackPixels(order, src', px)[i]
    {
      assert (4 * i + 0) % 4 == 0 && (4 * i + 1) % 4 == 1 && (4 * i + 2) % 4 == 2;
    }
  }

  /** A texel depends only on the blue, green and red bytes of its pixel. */
  lemma PackTexelOfChannels(order: Order565, s1: seq<bv8>, i: nat, s2: seq<bv8>, j: nat)
    requires 4 * i + 3 < |s1| && 4 * j + 3 < |s2|
    requires Channel(s1, i, BlueByte) == Channel(s2, j, BlueByte)
    requires Channel(s1, i, GreenByte) == Channel(s2, j, GreenByte)
    requires Channel(s1, i, RedByte) == Channel(s2, j, RedByte)
    ensures PackTexel(order, s1, i) == PackTexel(order, s2, j)
  {
  }

  /** Pixel `x` of a slice starting at pixel `start` is pixel `start + x` of the whole buffer. */
  lemma SliceChannels(src: seq<bv8>, start: nat, w: nat, x: nat)
    requires 4 * start + 4 * w <= |src| && x < w
    ensures Channel(src[4 * start..4 * start + 4 * w], x, BlueByte) == Channel(src, start + x, BlueByte)
    ensures Channel(src[4 * start..4 * start + 4 * w], x, GreenByte) == Channel(src, start + x, GreenByte)
    ensures Channel(src[4 * start..4 * start + 4 * w], x, RedByte) == Channel(src, start + x, RedByte)
  {
  }

  /** Packing a slice that starts at pixel `start` packs the pixels of the whole buffer from `start` on. */
  lemma PackPixelsOfSlice(order: Order565, src: seq<bv8>, start: nat, w: nat, x: nat)
    requires 4 * start + 4 * w <= |src| && x < w
    ensures PackPixels(order, src[4 * start..4 * start + 4 * w], w)[x] == PackTexel(order, src, start + x)
  {
    SliceChannels(src, start, w, x);
    PackTexelOfChannels(order, src[4 * start..4 * start + 4 * w], x, src, start + x);
  }

  /**
    The row kernels (`pack_bgra8888_to_rgb565_row` on the PSP,
    `pack_bgra8888_to_rgb565` on OpenGL ES): pack `w` pixels read from
    `src[sOff..]` into `dst[dOff..dOff + w]`, leaving every other texel of
    `dst` as it was.
   */
  method PackRow(order: Order565, dst: seq<bv16>, dOff: nat, src: seq<bv8>, sOff: nat, w: nat)
    returns (out: seq<bv16>)
    requires dOff + w <= |dst|
    requires sOff + 4 * w <= |src|
    ensures |out| == |dst|
    ensures out[dOff..dOff + w] == PackPixels(order, src[sOff..sOff + 4 * w], w)
    ensures forall i :: 0 <= i < |dst| && !(dOff <= i < dOff + w) ==> out[i] == dst[i]
  {
    var row := src[sOff..sOff + 4 * w];
    ghost var want := PackPixels(order, row, w);
    out := dst;
    var x := 0;
    while x < w
      invariant 0 <= x <= w
      invariant |out| == |dst|
      invariant forall i :: dOff <= i < dOff + x ==> out[i] == want[i - dOff]
      invariant forall i :: 0 <= i < |dst| && !(dOff <= i < dOff + x) ==> out[i] == dst[i]
    {
      out := out[dOff + x := PackTexel(order, row, x)];
      x := x + 1;
    }
    forall j | 0 <= j < w
      ensures out[dOff..dOff + w][j] == want[j]
    {
      assert out[dOff..dOff + w][j] == out[dOff + j];
    }
  }

  // ---------------------------------------------------------------------------
  // 32-bit BGRA -> RGBA reorder

  /** A little-endian 32-bit load of four bytes. */
  function LoadLE(b0: bv8, b1: bv8, b2: bv8, b3: bv8): bv32 {
    (b0 as bv32) | (b1 as bv32 << 8) | (b2 as bv32 << 16) | (b3 as bv32 << 24)
  }

  /** Byte `k` of a word as it lies in memory after a little-endian store. */
  function ByteOf(v: bv32, k: nat): bv8
    requires k < 4
  {
    if k == 0 then (v & 0xFF) as bv8
    else if k == 1 then ((v >> 8) & 0xFF) as bv8
    else if k == 2 then ((v >> 16) & 0xFF) as bv8
    else (v >> 24) as bv8
  }

  /** Storing a loaded word gives the same four bytes back. */
  lemma LoadStoreLE(b0: bv8, b1: bv8, b2: bv8, b3: bv8)
    ensures ByteOf(LoadLE(b0, b1, b2, b3), 0) == b0
    ensures ByteOf(LoadLE(b0, b1, b2, b3), 1) == b1
    ensures ByteOf(LoadLE(b0, b1, b2, b3), 2) == b2
    ensures ByteOf(LoadLE(b0, b1, b2, b3), 3) == b3
  {
  }

  /** Pixel `i` of a byte buffer read as one 32-bit word. */
  function Word(s: seq<bv8>, i: nat): bv32
    requires 4 * i + 3 < |s|
  {
    LoadLE(Channel(s, i, 0), Channel(s, i, 1), Channel(s, i, 2), Channel(s, i, 3))
  }

  /**
    The word expression of `swizzle_bgra_to_rgba` exactly as written:
    `(v >> 16) | (v & 0xFF00FF00) | (v << 16)`. The shifted copies are not
    masked, so the alpha byte lands in byte 1 and the green byte in byte 3.
   */
  function SwizzleWord(v: bv32): (o: bv32)
    ensures ByteOf(o, 0) == ByteOf(v, 2)
    ensures ByteOf(o, 1) == ByteOf(v, 1) | ByteOf(v, 3)
    ensures ByteOf(o, 2) == ByteOf(v, 0)
    ensures ByteOf(o, 3) == ByteOf(v, 1) | ByteOf(v, 3)
  {
    (v >> 16) | (v & 0xFF00FF00) | (v << 16)
  }

  /** What the as-written expression does to a BGRA pixel, byte by byte. */
  lemma SwizzleWordBytes(b: bv8, g: bv8, r: bv8, a: bv8)
    ensures ByteOf(SwizzleWord(LoadLE(b, g, r, a)), 0) == r
    ensures ByteOf(SwizzleWord(LoadLE(b, g, r, a)), 1) == g | a
    ensures ByteOf(SwizzleWord(LoadLE(b, g, r, a)), 2) == b
    ensures ByteOf(SwizzleWord(LoadLE(b, g, r, a)), 3) == g | a
  {
  }

  /** Green and alpha both come through unchanged exactly when they are equal. */
  lemma SwizzleWordKeepsGreenAlphaIff(b: bv8, g: bv8, r: bv8, a: bv8)
    ensures (ByteOf(SwizzleWord(LoadLE(b, g, r, a)), 1) == g &&
             ByteOf(SwizzleWord(LoadLE(b, g, r, a)), 3) == a) <==> g == a
  {
    SwizzleWordBytes(b, g, r, a);
  }

  /**
    An opaque pixel (blue 0x10, green 0x20, red 0x30, alpha 0xFF) comes out
    with its green byte saturated to 0xFF instead of 0x20.
   */
  lemma SwizzleWordCounterexample()
    ensures LoadLE(0x10, 0x20, 0x30, 0xFF) == 0xFF30_2010
    ensures SwizzleWord(0xFF30_2010) == 0xFF10_FF30
    ensures ByteOf(SwizzleWord(0xFF30_2010), 1) == 0xFF
    ensures SwizzleWord(0xFF30_2010) != ReorderWord(0xFF30_2010)
  {
  }

  /** The reorder the kernel is meant to perform: swap bytes 0 and 2, keep bytes 1 and 3. */
  function ReorderWord(v: bv32): (o: bv32)
    ensures ByteOf(o, 0) == ByteOf(v, 2)
    ensures ByteOf(o, 1) == ByteOf(v, 1)
    ensures ByteOf(o, 2) == ByteOf(v, 0)
    ensures ByteOf(o, 3) == ByteOf(v, 3)
  {
    ((v >> 16) & 0x0000_00FF) | (v & 0xFF00_FF00) | ((v << 16) & 0x00FF_0000)
  }

  /** The as-written expression agrees with the intended reorder exactly when green equals alpha. */
  lemma SwizzleWordAgreesIff(b: bv8, g: bv8, r: bv8, a: bv8)
    ensures SwizzleWord(LoadLE(b, g, r, a)) == ReorderWord(LoadLE(b, g, r, a)) <==> g == a
  {
    var v := LoadLE(b, g, r, a);
    SwizzleWordBytes(b, g, r, a);
    LoadStoreLE(b, g, r, a);
    if SwizzleWord(v) == ReorderWord(v) {
      assert g | a == g && g | a == a;
    }
  }

  /** Pixel `i` has its bytes at `4 * i + k`, `k < 4`. */
  lemma PixelIndex(i: nat, k: nat)
    requires k < 4
    ensures (4 * i + k) / 4 == i && (4 * i + k) % 4 == k
  {
  }

  /**
    `swizzle_bgra_to_rgba` over `px` pixels, as written, byte by byte: red,
    green|alpha, blue, green|alpha (see `SwizzlePixelsIsWordKernel`).
   */
  function SwizzlePixels(src: seq<bv8>, px: nat): (dst: seq<bv8>)
    requires 4 * px <= |src|
    ensures |dst| == 4 * px
    ensures forall i :: 0 <= i < px ==>
              && Channel(dst, i, 0) == Channel(src, i, RedByte)
              && Channel(dst, i, 1) == Channel(src, i, GreenByte) | Channel(src, i, AlphaByte)
              && Channel(dst, i, 2) == Channel(src, i, BlueByte)
              && Channel(dst, i, 3) == Channel(src, i, GreenByte) | Channel(src, i, AlphaByte)
  {
    var d := seq(4 * px, j requires 0 <= j < 4 * px =>
      var p := 4 * (j / 4);
      if j % 4 == 0 then src[p + 2]
      else if j % 4 == 2 then src[p]
      else src[p + 1] | src[p + 3]);
    forall i | 0 <= i < px
      ensures && Channel(d, i, 0) == Channel(src, i, RedByte)
              && Channel(d, i, 1) == Channel(src, i, GreenByte) | Channel(src, i, AlphaByte)
              && Channel(d, i, 2) == Channel(src, i, BlueByte)
              && Channel(d, i, 3) == Channel(src, i, GreenByte) | Channel(src, i, AlphaByte)
    {
      PixelIndex(i, 0);
      PixelIndex(i, 1);
      PixelIndex(i, 2);
      PixelIndex(i, 3);
    }
    d
  }

  /** Each pixel of `SwizzlePixels` is the little-endian store of `SwizzleWord` of the pixel's word. */
  lemma SwizzlePixelsIsWordKernel(src: seq<bv8>, px: nat, i: nat, k: nat)
    requires 4 * px <= |src| && i < px && k < 4
    ensures Channel(SwizzlePixels(src, px), i, k) == ByteOf(SwizzleWord(Word(src, i)), k)
  {
    var b, g, r, a := Channel(src, i, 0), Channel(src, i, 1), Channel(src, i, 2), Channel(src, i, 3);
    var d := SwizzlePixels(src, px);
    assert Word(src, i) == LoadLE(b, g, r, a);
    SwizzleWordBytes(b, g, r, a);
    if k == 0 {
      assert Channel(d, i, 0) == r;
    } else if k == 1 {
      assert Channel(d, i, 1) == g | a;
    } else if k == 2 {
      assert Channel(d, i, 2) == b;
    } else {
      assert Channel(d, i, 3) == g | a;
    }
  }

  /** Where byte `j` of the reordered image comes from: bytes 0 and 2 of each pixel trade places. */
  function SwapRedBlue(j: nat): (r: nat)
    ensures r / 4 == j / 4
  {
    var p := 4 * (j / 4);
    if j % 4 == 0 then p + 2 else if j % 4 == 2 then p else j
  }

  /** Swapping twice is the identity. */
  lemma SwapRedBlueInvolutive(j: nat)
    ensures SwapRedBlue(SwapRedBlue(j)) == j
  {
  }

  /** The intended BGRA -> RGBA reorder over `px` pixels: red and blue swap places. */
  function ReorderPixels(src: seq<bv8>, px: nat): (dst: seq<bv8>)
    requires 4 * px <= |src|
    ensures |dst| == 4 * px
    ensures forall i :: 0 <= i < px ==>
              && Channel(dst, i, 0) == Channel(src, i, RedByte)
              && Channel(dst, i, 1) == Channel(src, i, GreenByte)
              && Channel(dst, i, 2) == Channel(src, i, BlueByte)
              && Channel(dst, i, 3) == Channel(src, i, AlphaByte)
  {
    var d := seq(4 * px, j requires 0 <= j < 4 * px => src[SwapRedBlue(j)]);
    forall i | 0 <= i < px
      ensures && Channel(d, i, 0) == Channel(src, i, RedByte)
              && Channel(d, i, 1) == Channel(src, i, GreenByte)
              && Channel(d, i, 2) == Channel(src, i, BlueByte)
              && Channel(d, i, 3) == Channel(src, i, AlphaByte)
    {
      PixelIndex(i, 0);
      PixelIndex(i, 1);
      PixelIndex(i, 2);
      PixelIndex(i, 3);
    }
    d
  }

  /** Each pixel of `ReorderPixels` is the little-endian store of `ReorderWord` of the pixel's word. */
  lemma ReorderPixelsIsWordKernel(src: seq<bv8>, px: nat, i: nat, k: nat)
    requires 4 * px <= |src| && i < px && k < 4
    ensures Channel(ReorderPixels(src, px), i, k) == ByteOf(ReorderWord(Word(src, i)), k)
  {
    LoadStoreLE(Channel(src, i, 0), Channel(src, i, 1), Channel(src, i, 2), Channel(src, i, 3));
  }

  /** Reordering twice gives the source pixels back. */
  lemma ReorderPixelsInvolution(src: seq<bv8>, px: nat)
    requires 4 * px <= |src|
    ensures ReorderPixels(ReorderPixels(src, px), px) == src[..4 * px]
  {
    var once := ReorderPixels(src, px);
    var twice := ReorderPixels(once, px);
    forall j | 0 <= j < 4 * px
      ensures twice[j] == src[j]
    {
      SwapRedBlueInvolutive(j);
      assert twice[j] == once[SwapRedBlue(j)];
    }
  }

  /**
    Over a whole image, the as-written kernel produces the intended bytes
    exactly when every pixel's green byte equals its alpha byte.
   */
  lemma SwizzlePixelsAgreesIff(src: seq<bv8>, px: nat)
    requires 4 * px <= |src|
    ensures SwizzlePixels(src, px) == ReorderPixels(src, px) <==>
              forall i :: 0 <= i < px ==> Channel(src, i, GreenByte) == Channel(src, i, AlphaByte)
  {
    var s, o := SwizzlePixels(src, px), ReorderPixels(src, px);
    if s == o {
      forall i | 0 <= i < px
        ensures Channel(src, i, GreenByte) == Channel(src, i, AlphaByte)
      {
        OrBothIff(Channel(src, i, GreenByte), Channel(src, i, AlphaByte));
        assert Channel(s, i, 1) == Channel(o, i, 1) && Channel(s, i, 3) == Channel(o, i, 3);
      }
    }
    if forall i :: 0 <= i < px ==> Channel(src, i, GreenByte) == Channel(src, i, AlphaByte) {
      forall j | 0 <= j < 4 * px
        ensures s[j] == o[j]
      {
        var i, k := j / 4, j % 4;
        assert j == 4 * i + k;
        assert s[j] == Channel(s, i, k) && o[j] == Channel(o, i, k);
        OrBothIff(Channel(src, i, GreenByte), Channel(src, i, AlphaByte));
      }
    }
  }

  /** `g | a` equals both `g` and `a` exactly when they are equal. */
  lemma OrBothIff(g: bv8, a: bv8)
    ensures (g | a == g && g | a == a) <==> g == a
  {
  }
}

=== FILE: psp.dfy ===
/**
  The PSP GU back end: the renderer state threaded through `BeginDraw` and
  `EndDraw`, the padded RGB565 fill of the texture slot being written, and
  the rotation of the two texture slots.

  GU commands, display lists, cache flushes, the vertex quad and the wait
  for vertical blank are effects outside the model; `EndDraw` reports what
  it hands to them in a `FrameInfo`.
 */
module PspRenderer {
  import opened Wrappers
  import opened Bits
  import opened DrawBuffers
  import opened Pixels
  import opened Geometry
  import opened Filters
  import opened Vram

  /**
    The renderer's static state: the screen buffer, the unused upload
    buffer's capacity, the texture storage, `g_texbuf_idx` (the slot on
    display) and `g_last_filter`.
   */
  datatype PspState = PspState(target: DrawTarget, uploadCap: nat, tex: TexStore, idx: bv32, lastFilter: int)

  /** The slot index is 0 or 1, the storage is consistent and the filter cache holds a GU filter or nothing. */
  predicate Inv(s: PspState) {
    && s.idx < 2
    && StoreValid(s.tex)
    && (s.lastFilter == NoFilter || s.lastFilter == GuNearest || s.lastFilter == GuLinear)
  }

  /** The statics at program start. */
  const Start: PspState := PspState(NoTarget, 0, InitialTexStore, 0, NoFilter)

  lemma StartInv()
    ensures Inv(Start)
  {
    InitialTexStoreValid();
  }

  /** `g_texbuf_idx ^ 1`: the slot that is not on display. */
  function Other(idx: bv32): (r: bv32)
    ensures idx < 2 ==> r < 2 && r != idx
  {
    idx ^ 1
  }

  /** Flipping twice returns to the same slot. */
  lemma OtherInvolutive(idx: bv32)
    ensures Other(Other(idx)) == idx
  {
  }

  /** `Init`: forget the cached filter; every other static keeps its value. */
  function Init(s: PspState): (r: PspState)
    ensures r.lastFilter == NoFilter
    ensures r.target == s.target && r.uploadCap == s.uploadCap && r.tex == s.tex && r.idx == s.idx
    ensures Inv(s) ==> Inv(r)
  {
    s.(lastFilter := NoFilter)
  }

  /**
    `Destroy`: free both CPU buffers and forget the texture slots; the slot
    index returns to 0, but the video-memory allocator is not rewound.
   */
  function Destroy(s: PspState): (r: PspState)
    ensures r.uploadCap == 0 && r.target.cap == 0
    ensures r.tex.size == 0 && r.tex.slot0 == Unset && r.tex.slot1 == Unset
    ensures r.tex.alloc == s.tex.alloc
    ensures r.idx == 0 && r.lastFilter == s.lastFilter
    ensures r.target.width == s.target.width && r.target.height == s.target.height
    ensures r.tex.texW == s.tex.texW && r.tex.texH == s.tex.texH
    ensures Inv(s) ==> Inv(r)
  {
    s.(target := s.target.(cap := 0), uploadCap := 0, tex := DestroyTexbuf(s.tex), idx := 0)
  }

  /** `BeginDraw` on the PSP: the shared grow-only screen buffer. */
  function BeginFrame(s: PspState, width: nat, height: nat): (r: PspState)
    ensures r.target == BeginDraw(s.target, width, height).target
    ensures r.uploadCap == s.uploadCap && r.tex == s.tex && r.idx == s.idx && r.lastFilter == s.lastFilter
  {
    s.(target := BeginDraw(s.target, width, height).target)
  }

  /** What `EndDraw` hands to the GPU: the viewport, the texture size, the slot drawn from and the filter call. */
  datatype FrameInfo = FrameInfo(viewport: Rect, texW: nat, texH: nat, slot: bv32, filterCall: Option<int>)

  /** The state after `EndDraw` and what the frame showed. */
  datatype Drawn = Drawn(state: PspState, info: FrameInfo)

  /** The frame sizes `EndDraw` can handle: `next_pot` stays in range and the viewport divides by a non-zero value. */
  predicate Drawable(t: DrawTarget, lock: bool) {
    t.width <= IntMaxPot && t.height <= IntMaxPot
    && ViewportDefined(PspWidth, PspHeight, t.width, t.height, lock)
  }

  /**
    The state part of `EndDraw`: a 480x272 viewport, a power-of-two texture
    holding the frame, storage made large enough for it, the write slot
    `g_texbuf_idx ^ 1` displayed and made current, and the filter set only
    when it changed.
   */
  function EndDrawState(s: PspState, lock: bool, linear: bool): (d: Drawn)
    requires Inv(s) && Drawable(s.target, lock)
    ensures Inv(d.state)
    ensures d.info.viewport == Viewport(PspWidth, PspHeight, s.target.width, s.target.height, lock)
    ensures IsPow2(d.info.texW) && s.target.width <= d.info.texW
    ensures IsPow2(d.info.texH) && s.target.height <= d.info.texH
    ensures d.info.texW == NextPot(s.target.width) && d.info.texH == NextPot(s.target.height)
    ensures d.state.tex == EnsureTexbuf(s.tex, d.info.texW, d.info.texH)
    ensures TexBytes(d.info.texW, d.info.texH) <= d.state.tex.size
    ensures d.info.slot == Other(s.idx) && d.state.idx == d.info.slot
    ensures d.state.lastFilter == Wanted(linear, GuNearest, GuLinear)
    ensures d.info.filterCall.Some? <==> Wanted(linear, GuNearest, GuLinear) != s.lastFilter
    ensures d.info.filterCall.Some? ==> d.info.filterCall.value == Wanted(linear, GuNearest, GuLinear)
    ensures d.state.target == s.target && d.state.uploadCap == s.uploadCap
  {
    var w, h := s.target.width, s.target.height;
    var view := Viewport(PspWidth, PspHeight, w, h, lock);
    var texW, texH := NextPot(w), NextPot(h);
    var tex := EnsureTexbuf(s.tex, texW, texH);
    var next := Other(s.idx);
    var f := SetFilter(s.lastFilter, Wanted(linear, GuNearest, GuLinear));
    Drawn(s.(tex := tex, idx := next, lastFilter := f.last), FrameInfo(view, texW, texH, next, f.issued))
  }

  /** Pixel `y*w + x` of a `w`-wide frame lies inside a frame of `h` rows. */
  lemma RowInBounds(y: nat, w: nat, h: nat)
    requires y < h
    ensures y * w + w <= w * h
  {
    MulLe(y + 1, h, w);
  }

  /**
    Texel `(x, y)` of the written slot: the packed frame pixel inside the
    frame, zero in the padding columns and rows.
   */
  function PaddedTexel(screen: seq<bv8>, w: nat, h: nat, x: nat, y: nat): bv16
    requires 4 * (w * h) <= |screen|
  {
    if x < w && y < h then
      RowInBounds(y, w, h);
      PackTexel(BlueHigh, screen, y * w + x)
    else
      0
  }

  /**
    One row of the fill: pack the frame row over the slot's old texels, then
    zero the columns from `w` up to the texture width.
   */
  method PadRow(prev: seq<bv16>, screen: seq<bv8>, y: nat, w: nat, h: nat, texW: nat)
    returns (row: seq<bv16>)
    requires |prev| == texW && w <= texW && y < h && 4 * (w * h) <= |screen|
    ensures |row| == texW
    ensures forall x :: 0 <= x < texW ==> row[x] == PaddedTexel(screen, w, h, x, y)
  {
    RowInBounds(y, w, h);
    row := PackRow(BlueHigh, prev, 0, screen, 4 * (y * w), w);
    forall x | 0 <= x < w
      ensures row[x] == PackTexel(BlueHigh, screen, y * w + x)
    {
      assert row[x] == row[0..w][x];
      PackPixelsOfSlice(BlueHigh, screen, y * w, w, x);
    }
    var x := w;
    while x < texW
      invariant w <= x <= texW && |row| == texW
      invariant forall i :: 0 <= i < w ==> row[i] == PackTexel(BlueHigh, screen, y * w + i)
      invariant forall i :: w <= i < x ==> row[i] == 0
    {
      row := row[x := 0];
      x := x + 1;
    }
  }

  /**
    The fill of the write slot in `EndDraw`: rows of the frame packed and
    padded to the texture width, then the rows below the frame cleared. The
    slot's previous texels `prev`, seen with the new texture's stride, are
    overwritten everywhere.
   */
  method PadFill(prev: seq<seq<bv16>>, screen: seq<bv8>, w: nat, h: nat, texW: nat, texH: nat)
    returns (img: seq<seq<bv16>>)
    requires w <= texW && h <= texH && 4 * (w * h) <= |screen|
    requires |prev| == texH && forall y :: 0 <= y < texH ==> |prev[y]| == texW
    ensures |img| == texH
    ensures forall y :: 0 <= y < texH ==> |img[y]| == texW
    ensures forall y, x :: 0 <= y < texH && 0 <= x < texW ==> img[y][x] == PaddedTexel(screen, w, h, x, y)
  {
    img := [];
    var y := 0;
    while y < h
      invariant y <= h && |img| == y
      invariant forall yy :: 0 <= yy < y ==> |img[yy]| == texW
      invariant forall yy, x :: 0 <= yy < y && 0 <= x < texW ==> img[yy][x] == PaddedTexel(screen, w, h, x, yy)
    {
      var row := PadRow(prev[y], screen, y, w, h, texW);
      img := img + [row];
      y := y + 1;
    }
    while y < texH
      invariant h <= y <= texH && |img| == y
      invariant forall yy :: 0 <= yy < y ==> |img[yy]| == texW
      invariant forall yy, x :: 0 <= yy < y && 0 <= x < texW ==> img[yy][x] == PaddedTexel(screen, w, h, x, yy)
    {
      img := img + [seq(texW, _ => 0)];
      y := y + 1;
    }
  }

  /** The padded texture in texel terms: frame pixels packed blue-high inside, zero outside. */
  lemma PaddedTexelMeaning(screen: seq<bv8>, w: nat, h: nat, x: nat, y: nat)
    requires 4 * (w * h) <= |screen|
    ensures x < w && y < h ==>
              4 * (y * w + x) + 3 < |screen| && PacksPixel(BlueHigh, PaddedTexel(screen, w, h, x, y), screen, y * w + x)
    ensures !(x < w && y < h) ==> PaddedTexel(screen, w, h, x, y) == 0
  {
    if x < w && y < h {
      RowInBounds(y, w, h);
      var px := PackPixels(BlueHigh, screen, y * w + x + 1);
      assert px[y * w + x] == PaddedTexel(screen, w, h, x, y);
    }
  }

  /**
    `EndDraw`: the state change of `EndDrawState` together with the texels
    written into the new slot. `prev` holds the slot's texels before the
    frame, `screen` the screen buffer the caller filled after `BeginDraw`.
   */
  method EndDraw(s: PspState, screen: seq<bv8>, prev: seq<seq<bv16>>, lock: bool, linear: bool)
    returns (d: Drawn, img: seq<seq<bv16>>)
    requires Inv(s) && InFrame(s.target) && |screen| == s.target.cap && Drawable(s.target, lock)
    requires |prev| == NextPot(s.target.height)
    requires forall y :: 0 <= y < |prev| ==> |prev[y]| == NextPot(s.target.width)
    ensures d == EndDrawState(s, lock, linear)
    ensures |img| == d.info.texH
    ensures forall y :: 0 <= y < |img| ==> |img[y]| == d.info.texW
    ensures forall y, x :: 0 <= y < d.info.texH && 0 <= x < d.info.texW ==>
              img[y][x] == PaddedTexel(screen, s.target.width, s.target.height, x, y)
  {
    d := EndDrawState(s, lock, linear);
    img := PadFill(prev, screen, s.target.width, s.target.height, d.info.texW, d.info.texH);
  }

  /** One frame a caller draws: its size and the two configuration switches. */
  datatype FrameReq = FrameReq(width: nat, height: nat, lock: bool, linear: bool)

  /** A frame `EndDraw` can handle once `BeginDraw` has sized the screen buffer for it. */
  predicate ReqValid(r: FrameReq) {
    Drawable(DrawTarget(0, r.width, r.height), r.lock)
  }

  /** The state after a series of `BeginDraw`/`EndDraw` pairs and what each frame showed. */
  datatype Played = Played(state: PspState, infos: seq<FrameInfo>)

  function PlayFrames(s: PspState, reqs: seq<FrameReq>): (p: Played)
    requires Inv(s)
    requires forall i :: 0 <= i < |reqs| ==> ReqValid(reqs[i])
    ensures Inv(p.state) && |p.infos| == |reqs|
    ensures |reqs| > 0 ==> p.infos[0].slot == Other(s.idx)
    ensures forall i :: 0 < i < |reqs| ==> p.infos[i].slot == Other(p.infos[i - 1].slot)
    ensures p.state.idx == if |reqs| == 0 then s.idx else p.infos[|reqs| - 1].slot
    decreases |reqs|
  {
    if |reqs| == 0 then Played(s, [])
    else
      assert ReqValid(reqs[0]);
      var t := BeginFrame(s, reqs[0].width, reqs[0].height);
      assert t.target.width == reqs[0].width && t.target.height == reqs[0].height;
      var d := EndDrawState(t, reqs[0].lock, reqs[0].linear);
      assert forall i :: 0 <= i < |reqs[1..]| ==> reqs[1..][i] == reqs[i + 1];
      var rest := PlayFrames(d.state, reqs[1..]);
      var p := Played(rest.state, [d.info] + rest.infos);
      assert forall i :: 0 < i < |reqs| ==> p.infos[i] == rest.infos[i - 1];
      p
  }

  /**
    Slot use strictly alternates: the first frame writes the slot not on
    display, each later frame the other one, and the slot left on display
    is the one the last frame wrote.
   */
  lemma {:induction false} SlotsAlternate(s: PspState, reqs: seq<FrameReq>, i: nat)
    requires Inv(s)
    requires forall j :: 0 <= j < |reqs| ==> ReqValid(reqs[j])
    requires i < |reqs|
    ensures PlayFrames(s, reqs).infos[i].slot == if i % 2 == 0 then Other(s.idx) else s.idx
  {
    Alternation(PlayFrames(s, reqs).infos, s.idx, i);
  }

  /** A series of frames each drawing from the slot its predecessor did not, starting from `start`'s other slot. */
  lemma {:induction false} Alternation(infos: seq<FrameInfo>, start: bv32, i: nat)
    requires start < 2 && i < |infos|
    requires infos[0].slot == Other(start)
    requires forall j :: 0 < j < |infos| ==> infos[j].slot == Other(infos[j - 1].slot)
    ensures infos[i].slot == if i % 2 == 0 then Other(start) else start
  {
    if i > 0 {
      Alternation(infos, start, i - 1);
      OtherInvolutive(start);
    }
  }

  /** The 320x240 frame of a typical game, pillarboxed on the PSP screen into a 512x256 texture. */
  lemma EndDrawExample(s: PspState)
    requires Inv(s) && s.target.width == 320 && s.target.height == 240
    ensures EndDrawState(s, true, false).info.viewport == Rect(59, 0, 362, 272)
    ensures EndDrawState(s, true, false).info.texW == 512
    ensures EndDrawState(s, true, false).info.texH == 256
  {
    ViewportExample();
    assert IsPow2(512) && IsPow2(256) by {
      assert IsPow2(256) by {
        assert IsPow2(2) && IsPow2(4) && IsPow2(8) && IsPow2(16) && IsPow2(32) && IsPow2(64) && IsPow2(128);
      }
    }
    NextPotIsLeast(320, 512);
    NextPotIsLeast(240, 256);
  }
}

=== FILE: vram.dfy ===
/**
  The PSP texture storage: the bump allocator `vram_alloc_bytes` over the
  2 MiB of video memory left after the colour, display and depth buffers,
  and `ensure_texbuf`, which sizes the two texture slots.

  Offsets and sizes are unbounded naturals; the 32-bit `unsigned int`
  offset cannot wrap while requests stay below 4 GiB.
 */
module Vram {
  import opened Wrappers
  import opened Bits

  /** CPU address of video memory. */
  const VramBase: nat := 0x0400_0000

  /** Size of video memory, 2 MiB. */
  const VramSize: nat := 0x20_0000

  /** First byte handed out: past the draw, display and depth buffers. */
  const VramStart: nat := 0x15_4000

  /** Alignment of every allocation. */
  const VramAlign: nat := 16

  /** `g_vram_alloc_off`: bytes from the start of video memory already handed out. */
  datatype Allocator = Allocator(off: nat)

  /** The offset lies in `[VramStart, VramSize]` and is 16-aligned. */
  predicate Valid(a: Allocator) {
    VramStart <= a.off <= VramSize && a.off % VramAlign == 0
  }

  const InitialAllocator: Allocator := Allocator(VramStart)

  lemma InitialAllocatorValid()
    ensures Valid(InitialAllocator)
  {
  }

  /** Sums of 16-aligned values are 16-aligned. */
  lemma AlignedSum(x: nat, y: nat)
    requires y % VramAlign == 0
    ensures x % VramAlign == 0 ==> (x + y) % VramAlign == 0
  {
    if x % VramAlign == 0 {
      assert x + y == VramAlign * (x / VramAlign + y / VramAlign);
    }
  }

  /** The allocator after a request and the pointer returned, `None` for NULL. */
  datatype AllocResult = AllocResult(alloc: Allocator, ptr: Option<nat>)

  /**
    `vram_alloc_bytes(size)`: round the size up to 16 and hand out the next
    block if it fits below 2 MiB; otherwise return NULL and keep the offset.
   */
  function VramAlloc(a: Allocator, size: nat): (r: AllocResult)
    ensures r.ptr.None? <==> a.off + AlignUp(size, VramAlign) > VramSize
    ensures r.ptr.None? ==> r.alloc == a
    ensures r.ptr.Some? ==> r.ptr.value == VramBase + a.off
    ensures r.ptr.Some? ==> r.alloc.off == a.off + AlignUp(size, VramAlign)
    ensures Valid(a) ==> Valid(r.alloc)
  {
    var rounded := AlignUp(size, VramAlign);
    if a.off + rounded > VramSize then AllocResult(a, None)
    else
      AlignedSum(a.off, rounded);
      AllocResult(Allocator(a.off + rounded), Some(VramBase + a.off))
  }

  /** A block handed out: its address and its rounded length. */
  datatype Block = Block(addr: nat, len: nat)

  /** The blocks a series of requests obtains, and the allocator afterwards. */
  datatype Run = Run(alloc: Allocator, blocks: seq<Block>)

  function AllocAll(a: Allocator, sizes: seq<nat>): Run
    decreases |sizes|
  {
    if |sizes| == 0 then Run(a, [])
    else
      var r := VramAlloc(a, sizes[0]);
      var rest := AllocAll(r.alloc, sizes[1..]);
      match r.ptr
      case None => rest
      case Some(p) => Run(rest.alloc, [Block(p, AlignUp(sizes[0], VramAlign))] + rest.blocks)
  }

  /** Block `b` lies within video memory between offsets `lo` and `hi`. */
  predicate Within(b: Block, lo: nat, hi: nat) {
    VramBase + lo <= b.addr && b.addr + b.len <= VramBase + hi
  }

  /**
    Every block a series of requests obtains is 16-aligned and lies between
    the starting offset and the final one, which stays valid (so below
    2 MiB) and never moves backwards.
   */
  lemma {:induction false} AllocationsInRange(a: Allocator, sizes: seq<nat>)
    requires Valid(a)
    ensures Valid(AllocAll(a, sizes).alloc)
    ensures a.off <= AllocAll(a, sizes).alloc.off
    ensures forall i :: 0 <= i < |AllocAll(a, sizes).blocks| ==>
              AllocAll(a, sizes).blocks[i].addr % VramAlign == 0
              && Within(AllocAll(a, sizes).blocks[i], a.off, AllocAll(a, sizes).alloc.off)
    decreases |sizes|
  {
    if |sizes| > 0 {
      var r := VramAlloc(a, sizes[0]);
      AllocationsInRange(r.alloc, sizes[1..]);
      var rest := AllocAll(r.alloc, sizes[1..]);
      if r.ptr.Some? {
        var run := AllocAll(a, sizes);
        var first := Block(r.ptr.value, AlignUp(sizes[0], VramAlign));
        assert run.blocks == [first] + rest.blocks;
        AlignedSum(a.off, VramBase);
        assert first.addr % VramAlign == 0 && Within(first, a.off, r.alloc.off);
        forall i | 0 < i < |run.blocks|
          ensures run.blocks[i].addr % VramAlign == 0 && Within(run.blocks[i], a.off, run.alloc.off)
        {
          assert run.blocks[i] == rest.blocks[i - 1];
        }
      }
    }
  }

  /** Each block a series of requests obtains ends before the next begins: no two allocations overlap. */
  lemma {:induction false} AllocationsDisjoint(a: Allocator, sizes: seq<nat>)
    requires Valid(a)
    ensures forall i, j :: 0 <= i < j < |AllocAll(a, sizes).blocks| ==>
              AllocAll(a, sizes).blocks[i].addr + AllocAll(a, sizes).blocks[i].len
                <= AllocAll(a, sizes).blocks[j].addr
    decreases |sizes|
  {
    if |sizes| > 0 {
      var r := VramAlloc(a, sizes[0]);
      AllocationsDisjoint(r.alloc, sizes[1..]);
      if r.ptr.Some? {
        AllocationsInRange(r.alloc, sizes[1..]);
        var rest := AllocAll(r.alloc, sizes[1..]);
        var run := AllocAll(a, sizes);
        var first := Block(r.ptr.value, AlignUp(sizes[0], VramAlign));
        assert run.blocks == [first] + rest.blocks;
        assert first.addr + first.len == VramBase + r.alloc.off;
        forall i, j | 0 <= i < j < |run.blocks|
          ensures run.blocks[i].addr + run.blocks[i].len <= run.blocks[j].addr
        {
          assert run.blocks[j] == rest.blocks[j - 1];
          if i > 0 {
            assert run.blocks[i] == rest.blocks[i - 1];
          }
        }
      }
    }
  }

  /** Where one texture slot lives: a video-memory address, or system memory from `memalign`. */
  datatype Slot = InVram(addr: nat) | InRam | Unset

  /** The texture storage: `g_texbuf_size`, the two slots, the allocator and `g_tex_w`/`g_tex_h`. */
  datatype TexStore = TexStore(size: nat, slot0: Slot, slot1: Slot, alloc: Allocator, texW: nat, texH: nat)

  /** Program start: no slots, allocator at its start. */
  const InitialTexStore: TexStore := TexStore(0, Unset, Unset, InitialAllocator, 0, 0)

  /** The slot a `vram_alloc_bytes` result fills: video memory, or the `memalign` fallback on NULL. */
  function SlotOf(p: Option<nat>): Slot {
    match p
    case Some(addr) => InVram(addr)
    case None => InRam
  }

  /** Bytes an RGB565 texture of `tw` x `th` needs. */
  function TexBytes(tw: nat, th: nat): nat {
    tw * th * 2
  }

  /**
    The storage is consistent: a valid allocator, both slots set once a size
    is known, every slot in video memory holding `size` bytes below the
    allocator's offset, and two video-memory slots not overlapping.
   */
  predicate StoreValid(s: TexStore) {
    && Valid(s.alloc)
    && (s.size > 0 ==> s.slot0 != Unset && s.slot1 != Unset)
    && (s.slot0.InVram? ==> Within(Block(s.slot0.addr, s.size), VramStart, s.alloc.off))
    && (s.slot1.InVram? ==> Within(Block(s.slot1.addr, s.size), VramStart, s.alloc.off))
    && (s.slot0.InVram? && s.slot1.InVram? ==> s.slot0.addr + s.size <= s.slot1.addr)
  }

  lemma InitialTexStoreValid()
    ensures StoreValid(InitialTexStore)
  {
  }

  /**
    `ensure_texbuf(tw, th)`: when the texture needs more than the slots hold,
    both slots are replaced by new ones of the size rounded up to 16, each
    from video memory if it still fits and from system memory otherwise; the
    texture size is recorded either way.
   */
  function EnsureTexbuf(s: TexStore, tw: nat, th: nat): (r: TexStore)
    ensures r.texW == tw && r.texH == th
    ensures TexBytes(tw, th) <= r.size && s.size <= r.size
    ensures TexBytes(tw, th) <= s.size ==>
              r.size == s.size && r.slot0 == s.slot0 && r.slot1 == s.slot1 && r.alloc == s.alloc
    ensures TexBytes(tw, th) > s.size ==>
              r.size % VramAlign == 0 && r.size < TexBytes(tw, th) + VramAlign
    ensures TexBytes(tw, th) > s.size ==> (r.slot0 == InRam ==> r.slot1 == InRam)
    ensures TexBytes(tw, th) > s.size ==> (r.slot0.InVram? <==> s.alloc.off + r.size <= VramSize)
    ensures TexBytes(tw, th) > s.size ==> (r.slot1.InVram? <==> s.alloc.off + 2 * r.size <= VramSize)
    ensures TexBytes(tw, th) > s.size && r.slot0.InVram? ==> r.slot0.addr == VramBase + s.alloc.off
    ensures TexBytes(tw, th) > s.size && r.slot1.InVram? ==> r.slot1.addr == VramBase + s.alloc.off + r.size
    ensures TexBytes(tw, th) > s.size ==> r.slot0 != Unset && r.slot1 != Unset
    ensures StoreValid(s) ==> StoreValid(r)
  {
    var need := TexBytes(tw, th);
    if need > s.size then
      var size := AlignUp(need, VramAlign);
      var r0 := VramAlloc(s.alloc, size);
      var r1 := VramAlloc(r0.alloc, size);
      AlignUpIdempotent(need, VramAlign);
      TexStore(size, SlotOf(r0.ptr), SlotOf(r1.ptr), r1.alloc, tw, th)
    else
      s.(texW := tw, texH := th)
  }

  /**
    `Destroy`: the slots are forgotten and the size reset, but the bump
    allocator keeps its offset, so the video memory once handed out is
    not reused.
   */
  function DestroyTexbuf(s: TexStore): (r: TexStore)
    ensures r.size == 0 && r.slot0 == Unset && r.slot1 == Unset
    ensures r.alloc == s.alloc && r.texW == s.texW && r.texH == s.texH
    ensures StoreValid(s) ==> StoreValid(r)
  {
    s.(size := 0, slot0 := Unset, slot1 := Unset)
  }

  /**
    After a `Destroy`, the first slot allocated lies past both slots that were
    in video memory before it (and the second new slot lies past the first).
   */
  lemma DestroyDoesNotReuse(s: TexStore, tw: nat, th: nat)
    requires StoreValid(s)
    requires TexBytes(tw, th) > 0
    ensures s.slot0.InVram? && EnsureTexbuf(DestroyTexbuf(s), tw, th).slot0.InVram? ==>
              s.slot0.addr + s.size <= EnsureTexbuf(DestroyTexbuf(s), tw, th).slot0.addr
    ensures s.slot1.InVram? && EnsureTexbuf(DestroyTexbuf(s), tw, th).slot0.InVram? ==>
              s.slot1.addr + s.size <= EnsureTexbuf(DestroyTexbuf(s), tw, th).slot0.addr
  {
  }
}

=== FILE: wrappers.dfy ===
/** The optional value used wherever the C code returns or accepts a NULL pointer. */
module Wrappers {

  datatype Option<+T> = None | Some(value: T)
}
